=== FILE: README.md ===
# slack_emoji_uploader — a Dafny model of its reconciliation and dispatch core

`slack_emoji_uploader` keeps a Slack workspace's custom emoji in step with a
settings profile. Each numbered position `k` of the profile names emoji in
two settings, `k.id` and `k.filename`. Both are `|`-separated lists. One run
over the inclusive range `[--start, --finish]` does two things:

- it optionally removes every existing emoji whose name some position of
  the range lists;
- it optionally uploads every listed emoji that is not (or no longer)
  present, using a thread pool with at most `--threads` tasks in flight.

`--dry-run` reports both phases instead of acting.

This project models that core as pure Dafny functions. Every Python builtin
it leans on gets its exact semantics:

- `str.split` never returns an empty list;
- `zip` truncates;
- `dict(...).items()` keeps the first key position and the last value;
- `list.remove` raises ValueError when the element is missing;
- `str(int)` formats the numbered keys.

The settings are a `map<string, string>`. The workspace's emoji table is a
sequence of `(id, removal form)` pairs, and the removal form is an opaque
token. The thread pool is a state machine over an in-flight set of future
numbers. Which futures have finished when the loop waits is up to the
environment: it is a `Waiter` function, constrained only to return a
non-empty subset of a non-empty in-flight set. The model also covers the
session-cookie header the login builds, and the `;` sentinel that sends the
login into its two-factor branch.

Modules:

| module | file | what it holds |
|---|---|---|
| `Results` | results.dfy | `Result` (with the two Python errors the core can raise) and `Option` |
| `PyText` | pytext.dfy | `str.split`, `str.join`, `str(int)` and their round trips |
| `PyCollections` | pycollections.dfy | `zip`, dict items from pairs, first-occurrence dedupe |
| `Inventory` | inventory.dfy | `Image`, `ExistingImage`, removal handles, the `k.id`/`k.filename` keys |
| `Removal` | removal.dfy | removal selection, the working view, the removal phase as written and corrected |
| `Expansion` | expansion.dfy | per-position expansion and the upload filter |
| `Dispatch` | dispatch.dfy | the bounded upload loop as a trace of events |
| `Cookies` | cookies.dfy | the cookie header and its parse back |
| `Uploader` | uploader.dfy | one run of `main()` after login and scraping; the upload task |

The model keeps three behaviours of the code that are easy to miss:

- The same id at two positions of the range is uploaded twice. Nothing
  rejects it (`Expansion.SameIdTwice`).
- An emoji listed at two positions of the range is selected twice, and the
  second `list.remove` raises, which ends the run before the upload phase
  (see "## Findings"). `Uploader.Run` models the run as written,
  `Uploader.RunCorrected` the run with each listed emoji removed once.
- `zip` silently drops ids that have no filename.

## Model

| member | source | states |
|---|---|---|
| `PyText.Split` | slack_emoji_uploader/__init__.py:349 | splitting on the bar yields at least one piece, and no piece holds the separator |
| `PyText.SplitCount` | slack_emoji_uploader/__init__.py:371-372 | a split has exactly one more piece than the string has separators |
| `PyText.JoinSplit` | slack_emoji_uploader/__init__.py:371-372 | joining the pieces of a split with the separator gives back the setting's value |
| `PyText.SplitJoin` | slack_emoji_uploader/__init__.py:371-372 | splitting a join of separator-free pieces gives back the pieces |
| `PyText.IntRoundTrip` | slack_emoji_uploader/__init__.py:348 | the decimal text of position `k` in `'{}.id'.format(k)` reads back as `k`, negative positions included |
| `Inventory.KeysIdentifyPosition` | slack_emoji_uploader/__init__.py:367-372 | distinct positions read distinct `k.id` and `k.filename` keys, and no id key is a filename key |
| `PyCollections.Zip` | slack_emoji_uploader/__init__.py:370-373 | `zip` pairs positionally and stops at the shorter list |
| `PyCollections.DedupSpec` | slack_emoji_uploader/__init__.py:370-373 | the dict's keys are the ids once each, nothing else, in order of first appearance |
| `PyCollections.DictItemsSpec` | slack_emoji_uploader/__init__.py:370-373 | `PyCollections.DictItems`, which builds the dict pair by pair with `PyCollections.Store`, yields items that are the distinct ids, in first-appearance order, each carrying the filename of its last pair |
| `Removal.SelectionCount` | slack_emoji_uploader/__init__.py:344-350 | `Removal.Selection`, the model of `images_to_remove`, holds each existing image once per in-range position whose `k.id` split lists its id, times its copies in the table |
| `Removal.SelectionStructure` | slack_emoji_uploader/__init__.py:344-350 | the selection follows existing-image order: a concatenated table selects the concatenation, and one image's entries are its copies |
| `Removal.HitsAreCopies` | slack_emoji_uploader/__init__.py:347-349 | the inner loop over the range contributes one copy of the image per listing position |
| `Removal.SelectionMembers` | slack_emoji_uploader/__init__.py:344-350 | an image is selected iff it exists and some in-range position lists its id; an empty range (`finish < start`) selects nothing |
| `Removal.WorkingView` | slack_emoji_uploader/__init__.py:360-361 | after removal the working view holds every existing image whose id no in-range position lists, each as often as before, and nothing else |
| `Removal.ToRemove` | slack_emoji_uploader/__init__.py:344-358 | the corrected removal list holds each selected existing image exactly once |
| `Removal.RemovalPhase` | slack_emoji_uploader/__init__.py:343-361 | corrected removal phase: dry-run posts no removal form; a real run posts, next to each reported id, the form of an existing image with that id, covering every selected existing image exactly once and no other; the ids reported are exactly those existing and listed in range; the working view is updated in both modes |
| `Removal.ListRemove` | slack_emoji_uploader/__init__.py:361 | `list.remove` succeeds iff the element is present, and then drops its first occurrence, keeping the rest in order; otherwise it raises ValueError |
| `Removal.RemoveEach` | slack_emoji_uploader/__init__.py:360-361 | the deletion loop completes iff the list holds every entry at least as often as the selection does, and then removes exactly those copies; otherwise it raises ValueError |
| `Removal.RemovalPhaseAsWritten` | slack_emoji_uploader/__init__.py:343-361 | as written: dry-run posts nothing, and a real run posts the form of every selection entry in selection order, repeats included; the reported ids are those existing and listed in range; the deletion loop raises ValueError iff some existing image is listed at two in-range positions, and otherwise leaves exactly the working view's elements |
| `Removal.AsWrittenWorking` | slack_emoji_uploader/__init__.py:344-361 | running the deletion loop over the whole selection fails iff some existing image is listed at two in-range positions; otherwise what remains has the working view's elements, each as often |
| `Removal.AsWrittenCompletesIff` | slack_emoji_uploader/__init__.py:344-361 | on a table without repeated rows, the deletion loop completes iff no existing image is listed at two in-range positions, and then leaves the working view |
| `Removal.RepeatedListingRaises` | slack_emoji_uploader/__init__.py:344-361 | an id listed at positions 1 and 2 is selected twice, its form is posted twice, and the second `list.remove` raises even in dry-run |
| `Removal.CorrectedRemovalCompletes` | slack_emoji_uploader/__init__.py:360-361 | removing each selected image once always completes and leaves the working view |
| `Expansion.PositionImages` | slack_emoji_uploader/__init__.py:367-374 | a position yields no images exactly when its `k.id` setting is absent |
| `Expansion.PositionImagesSpec` | slack_emoji_uploader/__init__.py:367-374 | a configured position yields between one and `min(#ids, #filenames)` images: its paired ids once each in first-appearance order, each with the filename of the id's last pair |
| `Expansion.MissingFilenameKey` | slack_emoji_uploader/__init__.py:372 | `Expansion.FilenameList` reads a missing `k.filename` as `''`, so only the first id is produced, with filename `''` |
| `Expansion.ScenarioPairs` | slack_emoji_uploader/__init__.py:367-374 | ids `a`, `b` with filenames `x`, `y` at position 2 give `a` with `x`, then `b` with `y` |
| `Expansion.SameIdTwice` | slack_emoji_uploader/__init__.py:366-377 | id `a` at positions 1 and 2 and an empty working view: `a` passes the upload check twice, once per position, with filename `''` |
| `Expansion.ScenarioRepeatedId` | slack_emoji_uploader/__init__.py:370-373 | ids `a`, `b`, `a` with filenames `x`, `y`, `z` give `a` with `z`, then `b` with `y` |
| `Expansion.ScenarioTruncated` | slack_emoji_uploader/__init__.py:370-373 | ids `a`, `b` with the single filename `x` give only `a` with `x` |
| `Expansion.Unconfigured` | slack_emoji_uploader/__init__.py:392-396 | the positions warned about are exactly the in-range positions without `k.id`, in increasing order |
| `Expansion.Uploads` | slack_emoji_uploader/__init__.py:375-377 | an image passes the upload check iff it is desired and its id is not in the working view |
| `Expansion.UploadsWithoutClash` | slack_emoji_uploader/__init__.py:375-377 | when no desired id is in the working view, the upload check lets every desired image through, in order |
| `Expansion.UploadsAppend` | slack_emoji_uploader/__init__.py:375-377 | the upload check works image by image, so it distributes over concatenation |
| `Dispatch.WaitStep` | slack_emoji_uploader/__init__.py:378-382 | a wait taken with the in-flight set full keeps only the not-done futures, which leaves room for one more task |
| `Dispatch.SubmitStep` | slack_emoji_uploader/__init__.py:386-391 | a submission below the limit adds one future no earlier submission returned, and keeps the in-flight set within `threads` |
| `Dispatch.RoomAtEachSubmit` | slack_emoji_uploader/__init__.py:378-391 | with fresh futures the bound counts tasks: every submission finds fewer than `threads` tasks in flight, so a full set is waited on first |
| `Dispatch.InFlightSubmitted` | slack_emoji_uploader/__init__.py:364-397 | only submitted futures are ever in flight |
| `Dispatch.SecondSubmitNeedsWait` | slack_emoji_uploader/__init__.py:378-391 | with one worker, two submissions without a wait between them break the bound, a reused future number is not fresh, and a barrier before the end is not the loop's trace |
| `Dispatch.MakeRoom` | slack_emoji_uploader/__init__.py:378-382 | after the full check the in-flight set is below `threads`; with nothing in flight no wait happens |
| `Dispatch.Offer` | slack_emoji_uploader/__init__.py:375-391 | one image is dispatched iff it passes the upload check; the pool stays valid (in-flight set within `threads`, every future fresh, no barrier yet) and in its mode |
| `Dispatch.OfferAll` | slack_emoji_uploader/__init__.py:375-391 | the inner loop dispatches exactly the position's images that pass the upload check, in order |
| `Dispatch.Visit` | slack_emoji_uploader/__init__.py:367-396 | one outer iteration warns iff the position has no `k.id`, and otherwise dispatches the position's images that pass the upload check; the pool stays valid (in-flight set within `threads`, every future fresh, no barrier yet) and in its mode |
| `Dispatch.Positions` | slack_emoji_uploader/__init__.py:366-396 | the outer loop dispatches the images of `Expansion.Desired` (every configured position's images, in range order) that pass the upload check, and warns once per unconfigured position |
| `Dispatch.BarrierStep` | slack_emoji_uploader/__init__.py:397 | the final wait covers the whole remaining in-flight set and leaves every submitted future completed |
| `Dispatch.UploadPhase` | slack_emoji_uploader/__init__.py:363-397 | a non-positive `threads` raises; otherwise the dispatched images are exactly the checked desired ones, its trace is `Dispatch.Scheduled`: every submission returns a new future and finds room for it, the in-flight set never exceeds `threads`, the barrier is the last event and the only one, every wait happens with the set full and frees at least one future, and dry-run submits nothing and waits on nothing |
| `Cookies.CookieHeader` | slack_emoji_uploader/__init__.py:90-93 | the cookie header always ends with `;` and is exactly `;` (the two-factor condition) iff the jar is empty |
| `Cookies.ParseCookieHeader` | slack_emoji_uploader/__init__.py:90-93 | the header of a jar whose names hold no `=` or `;` and whose values hold no `;` reads back as that jar |
| `Cookies.HeaderOfParse` | slack_emoji_uploader/__init__.py:90-93 | any header that reads back as a jar is that jar's header, and the jar is well formed |
| `Uploader.Run` | slack_emoji_uploader/__init__.py:343-397 | as written, a run fails iff `--remove` is given and some existing image is listed at two in-range positions (ValueError, before any upload), or `--upload` is given with non-positive `threads`; without `--remove` nothing is posted and the working view is the table; with it a real run posts every selection entry's form and the working view loses exactly the listed images; dry-run posts and submits nothing; uploads are exactly the desired images whose id is missing from the working view, each submitted as a new task with fewer than `threads` in flight, and the final barrier comes last |
| `Uploader.RunCorrected` | slack_emoji_uploader/__init__.py:343-397 | with each listed image removed once, a run fails iff uploading with non-positive `threads`; a real removal posts every selected image's form exactly once; the other clauses are those of `Uploader.Run` |
| `Uploader.DryRunPreviews` | slack_emoji_uploader/__init__.py:352-391 | a dry run fails exactly when the real run does, reports the same removals, keeps the same working view and reports the same uploads, while posting and submitting nothing |
| `Uploader.DesiredAreSelected` | slack_emoji_uploader/__init__.py:344-350 | every image a position of the range asks for has an id the removal selection lists |
| `Uploader.RemoveThenUploadReplaces` | slack_emoji_uploader/__init__.py:343-391 | with both `--remove` and `--upload` and a positive `threads`, the run reaches the upload phase iff no existing image is listed at two in-range positions, and then no desired image is skipped: every one is dispatched, in range order |
| `Uploader.CorrectedRunReplaces` | slack_emoji_uploader/__init__.py:343-391 | with the corrected removal, `--remove` and `--upload` always reach the upload phase and dispatch every desired image, in range order |
| `Uploader.ListedOutOfView` | slack_emoji_uploader/__init__.py:375-377 | a working view holding no listed image lets every desired image through the upload check, in order |
| `Uploader.Upload` | slack_emoji_uploader/__init__.py:157-182 | the form keeps the hidden inputs and sets `name` and `mode`; the name returned is the name the form registers, the image's id |
| `Uploader.ReliablyUpload` | slack_emoji_uploader/__init__.py:185-208 | success logs the filename with the returned name; a RuntimeError is logged with the image's id; any other exception is not logged |

## Left out

- `load_settings` and its `configparser` layering: the settings are a given map, already merged for the profile, holding the values `settings[key]` returns after configparser's `%` interpolation. A value it cannot interpolate (a lone `%`, as in `100%.png`) raises at lines 349 and 371-372, in the middle of the upload loop for the latter; that error is not modelled.
- `process_cookies`' opener and request, `log_in_to_slack`'s prompts and form scraping: network and interactive I/O. Only the header formatting and the `;` test are modelled.
- `get_current_state` and the HTML parsing in `upload` and `remove`: the emoji table and the hidden form inputs are inputs; a removal form is an opaque token.
- `remove()`'s HTTP posts are the list of forms posted; its `Removing:` log line is the list of reported ids. The sorting and joining of the log lines is left out.
- `reliable_executor.reliably_execute` is not part of this model: its retry policy is folded into the single `Attempt` outcome of one upload.
- Real threads and timing: the futures' completion order is the `Waiter` parameter. The model reads it as a function of the in-flight set, so two waits on the same set are answered alike.
- Uploader.Upload: file opening and the `img` upload are left out; the contract speaks only of the form fields and the return value.
- Uploader.Run: when the deletion loop raises or the thread pool refuses its worker count, the run is an error, and the removal forms already posted are not reported alongside it (`Removal.RemovalPhaseAsWritten` states what was posted).
- Uploader.RunCorrected: the same for a refused worker count.
- `remove()`'s network failures are not modelled; in the source they propagate out of `main()`.
- argparse defaults and logging setup; the `--upload-folder` path joining.

## Findings

| source | as written | input that shows it | evidently intended | confidence | as-written member | corrected member |
|---|---|---|---|---|---|---|
| slack_emoji_uploader/__init__.py:344-361 | `images_to_remove` has one entry per (image, listing position), and the deletion loop calls `existing_images.remove` once per entry | one existing emoji `a`, settings `1.id = a` and `2.id = a`, `--remove --start 1 --finish 2`: `a` is selected twice, its form is posted twice, and the second `remove` raises ValueError, in dry-run too (`Removal.RepeatedListingRaises`; `Removal.AsWrittenCompletesIff` gives the exact condition) | remove each listed emoji once and drop it from the working view (`Removal.CorrectedRemovalCompletes`) | not executed | `Removal.RemovalPhaseAsWritten` | `Removal.RemovalPhase` |
| slack_emoji_uploader/__init__.py:343-397 | the ValueError from the deletion loop leaves `main()` before line 363, so no image is uploaded | the same settings with `--remove --upload --start 1 --finish 2`: the run ends with ValueError and nothing is uploaded (`Uploader.RemoveThenUploadReplaces` gives the exact condition) | remove, then upload every desired image (`Uploader.CorrectedRunReplaces`) | not executed | `Uploader.Run` | `Uploader.RunCorrected` |

=== FILE: cookies.dfy ===
/** The session cookie header the uploader builds after each login request:
    every cookie of the jar as `name=value`, joined by `"; "` and closed by a
    `;`. A header that is only `;` means the jar stayed empty, which is how
    the login notices that Slack asks for a two-factor code. */
module Cookies {
  import opened Results
  import opened PyText
  import opened PyCollections

  datatype Cookie = Cookie(name: string, value: string)

  /** `'{}={}'.format(cookie.name, cookie.value)`. */
  function Crumb(c: Cookie): string
  {
    c.name + "=" + c.value
  }

  function Crumbs(jar: seq<Cookie>): seq<string>
  {
    seq(|jar|, i requires 0 <= i < |jar| => Crumb(jar[i]))
  }

  /** `'{};'.format('; '.join(...))` over the cookie jar, in jar order. The
      header always ends with `;`, and it is `;` alone exactly when the jar
      is empty. */
  function CookieHeader(jar: seq<Cookie>): (header: string)
    ensures |header| >= 1 && header[|header| - 1] == ';'
    ensures NeedsTwoFactor(header) <==> |jar| == 0
  {
    var body := Join(Crumbs(jar), "; ");
    assert |jar| > 0 ==> |body| >= 1 by {
      if |jar| > 0 {
        assert Crumbs(jar)[0] == Crumb(jar[0]);
      }
    }
    body + ";"
  }

  /** `cookies == ';'`: the login response set no cookie, so the login asks
      for a two-factor code and posts again. */
  predicate NeedsTwoFactor(header: string)
  {
    header == ";"
  }

  // ---------------------------------------------------------------------
  // Reading a header back

  /** Cookies whose names hold neither `=` nor `;` and whose values hold no
      `;`: the header then determines the jar. */
  predicate WellFormed(jar: seq<Cookie>)
  {
    forall i :: 0 <= i < |jar| ==> '=' !in jar[i].name && ';' !in jar[i].name && ';' !in jar[i].value
  }

  /** The pieces between `;`s of a `"; "`-join: every piece but the first
      starts with the space of the separator. */
  function Spaced(parts: seq<string>): (r: seq<string>)
    ensures |r| == |parts|
  {
    if |parts| == 0 then [] else [parts[0]] + seq(|parts| - 1, i requires 0 <= i < |parts| - 1 => " " + parts[i + 1])
  }

  /** Undoes `Spaced`: fails when a piece after the first does not start
      with a space. */
  function Unspaced(parts: seq<string>): (r: Option<seq<string>>)
    requires |parts| >= 1
    ensures r.Some? ==> |r.value| == |parts| && r.value[0] == parts[0]
    ensures r.Some? ==> forall i :: 0 < i < |parts| ==> parts[i] == " " + r.value[i]
    decreases |parts|
  {
    if |parts| == 1 then Some(parts)
    else
      var last := parts[|parts| - 1];
      match Unspaced(parts[..|parts| - 1])
      case None => None
      case Some(init) =>
        if |last| >= 1 && last[0] == ' ' then
          assert last == " " + last[1..];
          Some(init + [last[1..]])
        else None
  }

  /** `name=value`, split at the first `=`. */
  function ParseCrumb(s: string): (r: Option<Cookie>)
    ensures r.Some? ==> Crumb(r.value) == s && '=' !in r.value.name
  {
    if '=' in s then
      var i := FirstIndex(s, '=');
      assert s == s[..i] + "=" + s[i + 1..];
      Some(Cookie(s[..i], s[i + 1..]))
    else None
  }

  function ParseCrumbs(crumbs: seq<string>): (r: Option<seq<Cookie>>)
    ensures r.Some? ==> |r.value| == |crumbs| && Crumbs(r.value) == crumbs
    ensures r.Some? ==> forall i :: 0 <= i < |crumbs| ==> '=' !in r.value[i].name
    decreases |crumbs|
  {
    if |crumbs| == 0 then Some([])
    else
      match ParseCrumb(crumbs[0])
      case None => None
      case Some(c) =>
        match ParseCrumbs(crumbs[1..])
        case None => None
        case Some(rest) =>
          assert Crumbs([c] + rest) == [Crumb(c)] + Crumbs(rest);
          assert crumbs == [crumbs[0]] + crumbs[1..];
          Some([c] + rest)
  }

  /** The jar a header stands for, or None when it is not of the form
      `CookieHeader` produces. */
  function ParseHeader(header: string): (r: Option<seq<Cookie>>)
  {
    if |header| == 0 || header[|header| - 1] != ';' then None
    else
      var body := header[..|header| - 1];
      if body == "" then Some([])
      else
        match Unspaced(Split(body, ';'))
        case None => None
        case Some(crumbs) => ParseCrumbs(crumbs)
  }

  /** Joining with `"; "` is joining the spaced pieces with `;`. */
  lemma {:induction false} JoinSpaced(parts: seq<string>)
    ensures Join(parts, "; ") == Join(Spaced(parts), ";")
  {
    if |parts| > 0 {
      var tail := parts[1..];
      SeparatedSpaced(tail);
      assert Spaced(parts)[1..] == seq(|tail|, i requires 0 <= i < |tail| => " " + tail[i]);
      assert Join(parts, "; ") == parts[0] + Separated(tail, "; ");
      assert Join(Spaced(parts), ";") == parts[0] + Separated(Spaced(parts)[1..], ";");
    }
  }

  lemma {:induction false} SeparatedSpaced(parts: seq<string>)
    ensures Separated(parts, "; ")
         == Separated(seq(|parts|, i requires 0 <= i < |parts| => " " + parts[i]), ";")
    decreases |parts|
  {
    var spaced := seq(|parts|, i requires 0 <= i < |parts| => " " + parts[i]);
    if |parts| > 0 {
      SeparatedSpaced(parts[1..]);
      assert spaced[1..] == seq(|parts| - 1, i requires 0 <= i < |parts| - 1 => " " + parts[1..][i]);
      assert "; " + parts[0] == ";" + spaced[0];
    }
  }

  /** A well-formed jar's header reads back as the jar. */
  lemma ParseCookieHeader(jar: seq<Cookie>)
    requires WellFormed(jar)
    ensures ParseHeader(CookieHeader(jar)) == Some(jar)
  {
    var header := CookieHeader(jar);
    var body := Join(Crumbs(jar), "; ");
    assert header[..|header| - 1] == body;
    if |jar| > 0 {
      var crumbs := Crumbs(jar);
      var spaced := Spaced(crumbs);
      JoinSpaced(crumbs);
      forall i | 0 <= i < |spaced| ensures ';' !in spaced[i] {
        assert crumbs[i] == jar[i].name + "=" + jar[i].value;
      }
      SplitJoin(spaced, ';');
      assert body != "" by {
        assert crumbs[0] == Crumb(jar[0]);
      }
      UnspacedSpaced(crumbs);
      ParseCrumbsOfCrumbs(jar);
    }
  }

  lemma {:induction false} UnspacedSpaced(parts: seq<string>)
    requires |parts| >= 1
    ensures Unspaced(Spaced(parts)) == Some(parts)
    decreases |parts|
  {
    if |parts| == 1 {
      assert Spaced(parts) == parts;
    } else {
      var n := |parts|;
      var init, last := parts[..n - 1], parts[n - 1];
      var sp := Spaced(parts);
      UnspacedSpaced(init);
      SpacedInit(parts);
      assert sp[n - 1] == " " + last;
      assert (" " + last)[1..] == last;
      assert Unspaced(sp) == Some(init + [last]);
      assert init + [last] == parts;
    }
  }

  /** Spacing commutes with dropping the last piece. */
  lemma SpacedInit(parts: seq<string>)
    requires |parts| >= 1
    ensures Spaced(parts)[..|parts| - 1] == Spaced(parts[..|parts| - 1])
  {
    var n := |parts|;
    var sp, init := Spaced(parts), parts[..n - 1];
    forall i | 0 <= i < n - 1 ensures sp[i] == Spaced(init)[i] {
      if i > 0 {
        assert sp[i] == " " + parts[i];
      }
    }
  }

  lemma {:induction false} ParseCrumbsOfCrumbs(jar: seq<Cookie>)
    requires WellFormed(jar)
    ensures ParseCrumbs(Crumbs(jar)) == Some(jar)
    decreases |jar|
  {
    if |jar| > 0 {
      var c := jar[0];
      var crumbs := Crumbs(jar);
      assert crumbs[0] == c.name + "=" + c.value;
      assert FirstIndex(crumbs[0], '=') == |c.name| by {
        assert crumbs[0][|c.name|] == '=';
        assert crumbs[0][..|c.name|] == c.name;
      }
      assert crumbs[0][..|c.name|] == c.name && crumbs[0][|c.name| + 1..] == c.value;
      assert crumbs[1..] == Crumbs(jar[1..]);
      ParseCrumbsOfCrumbs(jar[1..]);
      assert [c] + jar[1..] == jar;
    }
  }

  /** Spacing the unspaced pieces gives the pieces back. */
  lemma SpacedUnspaced(parts: seq<string>)
    requires |parts| >= 1 && Unspaced(parts).Some?
    ensures Spaced(Unspaced(parts).value) == parts
  {
    var r := Unspaced(parts).value;
    forall i | 0 <= i < |parts| ensures Spaced(r)[i] == parts[i] {
    }
  }

  /** Whatever a header reads back as is a well-formed jar whose header is
      that very header. */
  lemma HeaderOfParse(header: string)
    requires ParseHeader(header).Some?
    ensures WellFormed(ParseHeader(header).value)
    ensures CookieHeader(ParseHeader(header).value) == header
  {
    var jar := ParseHeader(header).value;
    var body := header[..|header| - 1];
    assert header == body + ";";
    if body != "" {
      var parts := Split(body, ';');
      var crumbs := Unspaced(parts).value;
      SpacedUnspaced(parts);
      JoinSpaced(crumbs);
      JoinSplit(body, ';');
      assert Crumbs(jar) == crumbs;
      ParsedWellFormed(parts, crumbs, jar);
    }
  }

  lemma ParsedWellFormed(parts: seq<string>, crumbs: seq<string>, jar: seq<Cookie>)
    requires forall i :: 0 <= i < |parts| ==> ';' !in parts[i]
    requires |parts| >= 1 && Unspaced(parts) == Some(crumbs)
    requires ParseCrumbs(crumbs) == Some(jar)
    ensures WellFormed(jar)
  {
    forall i | 0 <= i < |jar|
      ensures '=' !in jar[i].name && ';' !in jar[i].name && ';' !in jar[i].value
    {
      assert Crumbs(jar)[i] == jar[i].name + "=" + jar[i].value;
      assert ';' !in parts[i];
      if i > 0 {
        assert parts[i] == " " + crumbs[i];
      }
      assert ';' !in crumbs[i];
    }
  }
}

=== FILE: dispatch.dfy ===
/** The upload phase: the loop over the numbered range that submits one
    upload task per image still missing from the working view, keeping at
    most `threads` tasks in flight, and ends with a barrier that waits for
    all of them. Futures are numbered in submission order; when the loop
    waits for the first completion, which futures have finished is up to
    the environment. */
module Dispatch {
  import opened Results
  import opened Inventory
  import opened Expansion

  /** What the upload loop does, in order. */
  datatype Event =
    /** `log.warning`: position `k` has no `k.id` setting. */
    | Missing(position: int)
    /** Dry-run: `log.info('Would upload ...')` instead of a submission. */
    | WouldUpload(image: Image)
    /** `executor.submit(reliably_upload, image, ...)` returned `future`. */
    | Submitted(image: Image, future: nat)
    /** `wait(uploading, return_when=FIRST_COMPLETED)` returned; the futures
        in `done` leave the in-flight set. */
    | Waited(done: set<nat>)
    /** The final `wait(uploading)`, over every future still in flight. */
    | Barrier(rest: set<nat>)

  /** The environment's answer to a first-completion wait: given the
      futures in flight, those that have finished when the wait returns. */
  type Waiter = set<nat> -> set<nat>

  /** A first-completion wait on a non-empty set returns once at least one
      of its futures has finished. */
  ghost predicate ReturnsOnCompletion(wait: Waiter)
  {
    forall s: set<nat> :: s != {} ==> wait(s) != {} && wait(s) <= s
  }

  // ---------------------------------------------------------------------
  // Reading a trace of events

  /** The in-flight set (`uploading`) after the events. */
  function InFlight(events: seq<Event>): set<nat>
    decreases |events|
  {
    if |events| == 0 then {}
    else
      var before := InFlight(events[..|events| - 1]);
      match events[|events| - 1]
      case Submitted(_, f) => before + {f}
      case Waited(done) => before - done
      case Barrier(rest) => before - rest
      case _ => before
  }

  /** Every future submitted by the events. */
  function SubmittedFutures(events: seq<Event>): set<nat>
    decreases |events|
  {
    if |events| == 0 then {}
    else
      var before := SubmittedFutures(events[..|events| - 1]);
      match events[|events| - 1]
      case Submitted(_, f) => before + {f}
      case _ => before
  }

  /** Every future some wait saw finished. */
  function Completed(events: seq<Event>): set<nat>
    decreases |events|
  {
    if |events| == 0 then {}
    else
      var before := Completed(events[..|events| - 1]);
      match events[|events| - 1]
      case Waited(done) => before + done
      case Barrier(rest) => before + rest
      case _ => before
  }

  /** The images uploaded, or reported as "Would upload" in dry-run, in
      order. */
  function Dispatched(events: seq<Event>): seq<Image>
    decreases |events|
  {
    if |events| == 0 then []
    else
      var before := Dispatched(events[..|events| - 1]);
      match events[|events| - 1]
      case Submitted(image, _) => before + [image]
      case WouldUpload(image) => before + [image]
      case _ => before
  }

  /** The positions warned about, in order. */
  function Warnings(events: seq<Event>): seq<int>
    decreases |events|
  {
    if |events| == 0 then []
    else
      var before := Warnings(events[..|events| - 1]);
      match events[|events| - 1]
      case Missing(k) => before + [k]
      case _ => before
  }

  /** No task submitted and no wait that could block on one. */
  predicate Quiet(events: seq<Event>)
  {
    forall i :: 0 <= i < |events| ==> !events[i].Submitted? && !events[i].Waited?
  }

  /** No dry-run report. */
  predicate Unreported(events: seq<Event>)
  {
    forall i :: 0 <= i < |events| ==> !events[i].WouldUpload?
  }

  /** At no point are more than `threads` futures in flight. */
  ghost predicate WithinLimit(events: seq<Event>, threads: int)
  {
    forall i :: 0 <= i <= |events| ==> |InFlight(events[..i])| <= threads
  }

  /** Every wait happens with the in-flight set full, and releases at least
      one future of it. */
  ghost predicate WaitsOnlyWhenFull(events: seq<Event>, threads: int)
  {
    forall i :: 0 <= i < |events| && events[i].Waited? ==>
      && threads <= |InFlight(events[..i])|
      && events[i].done != {}
      && events[i].done <= InFlight(events[..i])
  }

  /** Every submission returns a future no earlier submission returned, so
      each future number stands for one task. */
  ghost predicate FreshFutures(events: seq<Event>)
  {
    forall i :: 0 <= i < |events| && events[i].Submitted? ==>
      events[i].future !in SubmittedFutures(events[..i])
  }

  /** No final wait among the events: the loop is still running. */
  predicate NoBarrier(events: seq<Event>)
  {
    forall i :: 0 <= i < |events| ==> !events[i].Barrier?
  }

  /** Every submission happens with room for one more task: the loop has
      waited first whenever `len(uploading) >= threads`. */
  ghost predicate SubmitsWithRoom(events: seq<Event>, threads: int)
  {
    forall i :: 0 <= i < |events| && events[i].Submitted? ==> |InFlight(events[..i])| < threads
  }

  /** Only submitted futures are ever in flight. */
  lemma {:induction false} InFlightSubmitted(events: seq<Event>)
    ensures InFlight(events) <= SubmittedFutures(events)
    decreases |events|
  {
    if |events| > 0 {
      InFlightSubmitted(events[..|events| - 1]);
    }
  }

  /** With fresh futures the bound on future numbers bounds tasks: each
      submission adds a new member to the in-flight set, so it needs room. */
  lemma RoomAtEachSubmit(events: seq<Event>, threads: int)
    requires WithinLimit(events, threads) && FreshFutures(events)
    ensures SubmitsWithRoom(events, threads)
  {
    forall i | 0 <= i < |events| && events[i].Submitted?
      ensures |InFlight(events[..i])| < threads
    {
      var before, f := events[..i], events[i].future;
      assert events[..i + 1][..i] == before;
      assert events[..i + 1][i] == events[i];
      InFlightSubmitted(before);
      assert f !in InFlight(before);
      assert InFlight(events[..i + 1]) == InFlight(before) + {f};
      assert |InFlight(events[..i + 1])| <= threads;
    }
  }

  /** With one worker, a second task cannot go in without a wait: reusing
      the first future number is not fresh, a barrier before the end is not
      the loop, and two fresh futures overflow the bound. */
  lemma SecondSubmitNeedsWait()
    ensures !FreshFutures([Submitted(Image("a", "x"), 0), Submitted(Image("b", "y"), 0), Barrier({0})])
    ensures !NoBarrier([Submitted(Image("a", "x"), 0), Barrier({0}), Submitted(Image("b", "y"), 1)])
    ensures !WithinLimit([Submitted(Image("a", "x"), 0), Submitted(Image("b", "y"), 1)], 1)
  {
    var a, b := Image("a", "x"), Image("b", "y");
    var reused := [Submitted(a, 0), Submitted(b, 0), Barrier({0})];
    var first := [Submitted(a, 0)];
    assert first[..0] == [];
    assert SubmittedFutures(first) == {0} && InFlight(first) == {0};
    assert reused[..1] == first && reused[1].Submitted? && reused[1].future == 0;
    var twice := [Submitted(a, 0), Submitted(b, 1)];
    assert twice[..2] == twice && twice[..1] == first;
    assert InFlight(twice) == {0, 1};
    assert |InFlight(twice[..2])| == 2;
    assert !WithinLimit(twice, 1);
    var early := [Submitted(a, 0), Barrier({0}), Submitted(b, 1)];
    assert early[1].Barrier?;
  }

  /** Appending one event leaves the prefixes of the old trace unchanged. */
  lemma Prefixes(events: seq<Event>, e: Event)
    ensures (events + [e])[..|events|] == events
    ensures (events + [e])[..|events| + 1] == events + [e]
    ensures forall i :: 0 <= i <= |events| ==> (events + [e])[..i] == events[..i]
  {
    var longer := events + [e];
    assert longer[..|events|] == events;
    assert longer[..|longer|] == longer;
    forall i | 0 <= i <= |events| ensures longer[..i] == events[..i] {
    }
  }

  lemma ExtendWithinLimit(events: seq<Event>, e: Event, threads: int)
    requires WithinLimit(events, threads)
    requires |InFlight(events + [e])| <= threads
    ensures WithinLimit(events + [e], threads)
  {
    Prefixes(events, e);
  }

  lemma ExtendWaits(events: seq<Event>, e: Event, threads: int)
    requires WaitsOnlyWhenFull(events, threads)
    requires e.Waited? ==> threads <= |InFlight(events)| && e.done != {} && e.done <= InFlight(events)
    ensures WaitsOnlyWhenFull(events + [e], threads)
  {
    Prefixes(events, e);
  }

  lemma ExtendFresh(events: seq<Event>, e: Event)
    requires FreshFutures(events)
    requires e.Submitted? ==> e.future !in SubmittedFutures(events)
    ensures FreshFutures(events + [e])
  {
    Prefixes(events, e);
  }

  lemma ExtendNoBarrier(events: seq<Event>, e: Event)
    requires NoBarrier(events) && !e.Barrier?
    ensures NoBarrier(events + [e])
  {
  }

  lemma ExtendQuiet(events: seq<Event>, e: Event)
    requires Quiet(events) && !e.Submitted? && !e.Waited?
    ensures Quiet(events + [e])
  {
  }

  lemma ExtendUnreported(events: seq<Event>, e: Event)
    requires Unreported(events) && !e.WouldUpload?
    ensures Unreported(events + [e])
  {
  }

  // ---------------------------------------------------------------------
  // The loop

  /** The loop's state: the in-flight set, the number of the next future,
      and the events so far. */
  datatype Pool = Pool(uploading: set<nat>, next: nat, events: seq<Event>)

  /** The pool agrees with its trace and the trace respects the bound. */
  ghost predicate Valid(p: Pool, threads: int)
  {
    && threads >= 1
    && p.uploading == InFlight(p.events)
    && Completed(p.events) <= SubmittedFutures(p.events)
    && p.uploading == SubmittedFutures(p.events) - Completed(p.events)
    && (forall f :: f in SubmittedFutures(p.events) ==> f < p.next)
    && WithinLimit(p.events, threads)
    && WaitsOnlyWhenFull(p.events, threads)
    && FreshFutures(p.events)
    && NoBarrier(p.events)
  }

  /** Dry-run keeps the trace quiet; a real run reports nothing. */
  ghost predicate InMode(p: Pool, dryRun: bool)
  {
    && (dryRun ==> Quiet(p.events) && p.uploading == {})
    && (!dryRun ==> Unreported(p.events))
  }

  /** A wait that releases a non-empty part of a full in-flight set keeps
      the pool valid and leaves room for one more task. */
  lemma WaitStep(p: Pool, done: set<nat>, threads: int)
    requires Valid(p, threads)
    requires threads <= |p.uploading| && done != {} && done <= p.uploading
    ensures var q := Pool(p.uploading - done, p.next, p.events + [Waited(done)]);
            && Valid(q, threads)
            && |q.uploading| < threads
            && Dispatched(q.events) == Dispatched(p.events)
            && Warnings(q.events) == Warnings(p.events)
            && (Unreported(p.events) ==> Unreported(q.events))
  {
    var e := Waited(done);
    var events := p.events + [e];
    Prefixes(p.events, e);
    assert p.uploading - done < p.uploading;
    assert InFlight(events) == p.uploading - done;
    ExtendWithinLimit(p.events, e, threads);
    ExtendWaits(p.events, e, threads);
    ExtendFresh(p.events, e);
    if Unreported(p.events) {
      ExtendUnreported(p.events, e);
    }
  }

  /** Submitting into an in-flight set below the limit keeps the pool valid. */
  lemma SubmitStep(p: Pool, image: Image, threads: int)
    requires Valid(p, threads) && |p.uploading| < threads
    ensures var q := Pool(p.uploading + {p.next}, p.next + 1, p.events + [Submitted(image, p.next)]);
            && Valid(q, threads)
            && Dispatched(q.events) == Dispatched(p.events) + [image]
            && Warnings(q.events) == Warnings(p.events)
            && (Unreported(p.events) ==> Unreported(q.events))
  {
    var e := Submitted(image, p.next);
    SubmitValid(p, image, threads);
    Prefixes(p.events, e);
    if Unreported(p.events) {
      ExtendUnreported(p.events, e);
    }
  }

  lemma SubmitValid(p: Pool, image: Image, threads: int)
    requires Valid(p, threads) && |p.uploading| < threads
    ensures Valid(Pool(p.uploading + {p.next}, p.next + 1, p.events + [Submitted(image, p.next)]), threads)
  {
    var e := Submitted(image, p.next);
    SubmitSets(p.events, p.uploading, p.next, image);
    ExtendWithinLimit(p.events, e, threads);
    ExtendWaits(p.events, e, threads);
    ExtendFresh(p.events, e);
    ExtendNoBarrier(p.events, e);
  }

  /** The sets a submission changes: one new future, submitted and in
      flight, none completed. */
  lemma SubmitSets(events: seq<Event>, uploading: set<nat>, next: nat, image: Image)
    requires uploading == InFlight(events)
    requires Completed(events) <= SubmittedFutures(events)
    requires uploading == SubmittedFutures(events) - Completed(events)
    requires forall f :: f in SubmittedFutures(events) ==> f < next
    ensures var after := events + [Submitted(image, next)];
            && next !in SubmittedFutures(events)
            && InFlight(after) == uploading + {next}
            && |InFlight(after)| == |uploading| + 1
            && SubmittedFutures(after) == SubmittedFutures(events) + {next}
            && Completed(after) == Completed(events)
            && Completed(after) <= SubmittedFutures(after)
            && InFlight(after) == SubmittedFutures(after) - Completed(after)
            && forall f :: f in SubmittedFutures(after) ==> f < next + 1
  {
    var after := events + [Submitted(image, next)];
    assert after[..|after| - 1] == events;
    assert next !in uploading && next !in Completed(events);
  }

  /** A warning or a dry-run report leaves the in-flight set alone. */
  lemma LogStep(p: Pool, e: Event, threads: int)
    requires Valid(p, threads) && (e.Missing? || e.WouldUpload?)
    ensures var q := Pool(p.uploading, p.next, p.events + [e]);
            && Valid(q, threads)
            && Dispatched(q.events) == Dispatched(p.events) + (if e.WouldUpload? then [e.image] else [])
            && Warnings(q.events) == Warnings(p.events) + (if e.Missing? then [e.position] else [])
            && (Quiet(p.events) ==> Quiet(q.events))
            && (Unreported(p.events) && e.Missing? ==> Unreported(q.events))
  {
    var events := p.events + [e];
    Prefixes(p.events, e);
    assert InFlight(events) == p.uploading;
    ExtendWithinLimit(p.events, e, threads);
    ExtendWaits(p.events, e, threads);
    ExtendFresh(p.events, e);
    if Quiet(p.events) {
      ExtendQuiet(p.events, e);
    }
    if Unreported(p.events) && e.Missing? {
      ExtendUnreported(p.events, e);
    }
  }

  /** `if len(uploading) >= threads: uploading = wait(...).not_done`. */
  function MakeRoom(p: Pool, threads: int, wait: Waiter): (q: Pool)
    requires Valid(p, threads) && ReturnsOnCompletion(wait)
    ensures Valid(q, threads)
    ensures |q.uploading| < threads
    ensures q.next == p.next
    ensures Dispatched(q.events) == Dispatched(p.events)
    ensures Warnings(q.events) == Warnings(p.events)
    ensures p.uploading == {} ==> q == p
    ensures Unreported(p.events) ==> Unreported(q.events)
  {
    if |p.uploading| >= threads then
      var done := wait(p.uploading);
      WaitStep(p, done, threads);
      Pool(p.uploading - done, p.next, p.events + [Waited(done)])
    else
      p
  }

  /** One image of the inner loop: skipped when its id is in the working
      view; otherwise reported in dry-run, or submitted after making room. */
  function Offer(p: Pool, image: Image, working: seq<ExistingImage>, threads: int, dryRun: bool,
                 wait: Waiter): (q: Pool)
    requires Valid(p, threads) && InMode(p, dryRun) && ReturnsOnCompletion(wait)
    ensures Valid(q, threads) && InMode(q, dryRun)
    ensures Dispatched(q.events) == Dispatched(p.events) + Uploads([image], working)
    ensures Warnings(q.events) == Warnings(p.events)
  {
    assert Uploads([image], working) == if HasId(working, image.id) then [] else [image] by {
      assert [image][1..] == [];
    }
    if HasId(working, image.id) then p
    else
      var room := MakeRoom(p, threads, wait);
      if dryRun then
        LogStep(room, WouldUpload(image), threads);
        Pool(room.uploading, room.next, room.events + [WouldUpload(image)])
      else
        SubmitStep(room, image, threads);
        Pool(room.uploading + {room.next}, room.next + 1, room.events + [Submitted(image, room.next)])
  }

  /** The first image's uploads followed by the rest's are the uploads of
      the whole list. */
  lemma DispatchedAcross(before: seq<Image>, images: seq<Image>, working: seq<ExistingImage>)
    requires |images| > 0
    ensures before + Uploads([images[0]], working) + Uploads(images[1..], working)
         == before + Uploads(images, working)
  {
    UploadsConcat(before, [images[0]], images[1..], working);
    assert [images[0]] + images[1..] == images;
  }

  /** `for image in images: ...` */
  function OfferAll(p: Pool, images: seq<Image>, working: seq<ExistingImage>, threads: int,
                    dryRun: bool, wait: Waiter): (q: Pool)
    requires Valid(p, threads) && InMode(p, dryRun) && ReturnsOnCompletion(wait)
    ensures Valid(q, threads) && InMode(q, dryRun)
    ensures Dispatched(q.events) == Dispatched(p.events) + Uploads(images, working)
    ensures Warnings(q.events) == Warnings(p.events)
    decreases |images|
  {
    if |images| == 0 then p
    else
      var first := Offer(p, images[0], working, threads, dryRun, wait);
      var q := OfferAll(first, images[1..], working, threads, dryRun, wait);
      DispatchedAcross(Dispatched(p.events), images, working);
      q
  }

  lemma UploadsConcat(before: seq<Image>, a: seq<Image>, b: seq<Image>, working: seq<ExistingImage>)
    ensures before + Uploads(a, working) + Uploads(b, working) == before + Uploads(a + b, working)
  {
    var x, y := Uploads(a, working), Uploads(b, working);
    UploadsAppend(a, b, working);
    assert before + x + y == before + (x + y);
  }

  /** The images position `k` asks for; none when it is unconfigured. */
  function PositionDesired(settings: Settings, k: int): seq<Image>
  {
    match PositionImages(settings, k)
    case None => []
    case Some(images) => images
  }

  /** The positions warned about at `k`: `k` itself when it is unconfigured. */
  function PositionWarnings(settings: Settings, k: int): seq<int>
  {
    if IdKey(k) in settings then [] else [k]
  }

  /** One iteration of the outer loop: a warning for an unconfigured
      position, the inner loop over its images otherwise. */
  function Visit(p: Pool, settings: Settings, k: int, working: seq<ExistingImage>, threads: int,
                 dryRun: bool, wait: Waiter): (q: Pool)
    requires Valid(p, threads) && InMode(p, dryRun) && ReturnsOnCompletion(wait)
    ensures Valid(q, threads) && InMode(q, dryRun)
    ensures Dispatched(q.events) == Dispatched(p.events) + Uploads(PositionDesired(settings, k), working)
    ensures Warnings(q.events) == Warnings(p.events) + PositionWarnings(settings, k)
  {
    match PositionImages(settings, k)
    case None =>
      var e := Missing(k);
      LogStep(p, e, threads);
      Pool(p.uploading, p.next, p.events + [e])
    case Some(images) =>
      OfferAll(p, images, working, threads, dryRun, wait)
  }

  /** Position `k` followed by the rest of the range is the whole range. */
  lemma RangeStep(uploaded: seq<Image>, warned: seq<int>, settings: Settings, k: int, finish: int,
                  working: seq<ExistingImage>)
    requires k <= finish
    ensures uploaded + Uploads(PositionDesired(settings, k), working) + Uploads(Desired(settings, k + 1, finish), working)
         == uploaded + Uploads(Desired(settings, k, finish), working)
    ensures warned + PositionWarnings(settings, k) + Unconfigured(settings, k + 1, finish)
         == warned + Unconfigured(settings, k, finish)
  {
    DesiredStep(settings, k, finish);
    UploadsConcat(uploaded, PositionDesired(settings, k), Desired(settings, k + 1, finish), working);
    WarningsStep(warned, settings, k, finish);
  }

  lemma DesiredStep(settings: Settings, k: int, finish: int)
    requires k <= finish
    ensures Desired(settings, k, finish) == PositionDesired(settings, k) + Desired(settings, k + 1, finish)
  {
    if PositionImages(settings, k).None? {
      assert PositionDesired(settings, k) + Desired(settings, k + 1, finish) == Desired(settings, k + 1, finish);
    }
  }

  lemma WarningsStep(warned: seq<int>, settings: Settings, k: int, finish: int)
    requires k <= finish
    ensures warned + PositionWarnings(settings, k) + Unconfigured(settings, k + 1, finish)
         == warned + Unconfigured(settings, k, finish)
  {
    var here, rest := PositionWarnings(settings, k), Unconfigured(settings, k + 1, finish);
    if IdKey(k) in settings {
      assert here == [] && Unconfigured(settings, k, finish) == rest;
      assert warned + here == warned;
    } else {
      assert here == [k] && Unconfigured(settings, k, finish) == [k] + rest;
      assert warned + here + rest == warned + ([k] + rest);
    }
  }

  /** `for image_id in range(k, finish + 1): ...` */
  function Positions(p: Pool, settings: Settings, k: int, finish: int, working: seq<ExistingImage>,
                     threads: int, dryRun: bool, wait: Waiter): (q: Pool)
    requires Valid(p, threads) && InMode(p, dryRun) && ReturnsOnCompletion(wait)
    ensures Valid(q, threads) && InMode(q, dryRun)
    ensures Dispatched(q.events) == Dispatched(p.events) + Uploads(Desired(settings, k, finish), working)
    ensures Warnings(q.events) == Warnings(p.events) + Unconfigured(settings, k, finish)
    decreases finish - k + 1
  {
    if k > finish then p
    else
      var q := Visit(p, settings, k, working, threads, dryRun, wait);
      var r := Positions(q, settings, k + 1, finish, working, threads, dryRun, wait);
      RangeStep(Dispatched(p.events), Warnings(p.events), settings, k, finish, working);
      r
  }

  /** The final barrier empties the in-flight set: every submitted future
      has been seen finished. */
  lemma BarrierStep(p: Pool, threads: int, dryRun: bool)
    requires Valid(p, threads) && InMode(p, dryRun)
    ensures var events := p.events + [Barrier(p.uploading)];
            && WithinLimit(events, threads)
            && WaitsOnlyWhenFull(events, threads)
            && InFlight(events) == {}
            && SubmittedFutures(events) <= Completed(events)
            && FreshFutures(events)
            && NoBarrier(events[..|events| - 1])
            && Dispatched(events) == Dispatched(p.events)
            && Warnings(events) == Warnings(p.events)
            && events[..|events| - 1] == p.events
            && (dryRun ==> Quiet(events))
            && (!dryRun ==> Unreported(events))
  {
    var e := Barrier(p.uploading);
    var events := p.events + [e];
    Prefixes(p.events, e);
    assert InFlight(events) == {};
    ExtendWithinLimit(p.events, e, threads);
    ExtendWaits(p.events, e, threads);
    ExtendFresh(p.events, e);
    if dryRun {
      ExtendQuiet(p.events, e);
    } else {
      ExtendUnreported(p.events, e);
    }
  }

  /** How a finished upload loop used the pool: each submission took a new
      future and found room for it, the in-flight set never exceeded
      `threads`, every wait happened on a full set and freed some of it,
      and the loop ended with one barrier over everything still in flight,
      after which every submitted future has been seen finished. */
  ghost predicate Scheduled(events: seq<Event>, threads: int)
  {
    && WithinLimit(events, threads)
    && WaitsOnlyWhenFull(events, threads)
    && FreshFutures(events)
    && SubmitsWithRoom(events, threads)
    && InFlight(events) == {}
    && SubmittedFutures(events) <= Completed(events)
    && |events| >= 1 && events[|events| - 1].Barrier?
    && NoBarrier(events[..|events| - 1])
    && events[|events| - 1].rest == InFlight(events[..|events| - 1])
  }

  /** The whole upload phase: the executor refuses a non-positive worker
      count; otherwise the loop runs and a final barrier waits for every
      future still in flight. */
  function UploadPhase(settings: Settings, start: int, finish: int, working: seq<ExistingImage>,
                       threads: int, dryRun: bool, wait: Waiter): (r: Result<seq<Event>>)
    requires ReturnsOnCompletion(wait)
    ensures r.Err? <==> threads <= 0
    ensures r.Ok? ==>
              && Dispatched(r.value) == Uploads(Desired(settings, start, finish), working)
              && Warnings(r.value) == Unconfigured(settings, start, finish)
              && Scheduled(r.value, threads)
              && (dryRun ==> Quiet(r.value) && r.value[|r.value| - 1].rest == {})
              && (!dryRun ==> Unreported(r.value))
  {
    if threads <= 0 then Err(NonPositiveWorkers)
    else
      var empty := Pool({}, 0, []);
      assert Valid(empty, threads) by {
        assert forall i :: 0 <= i <= 0 ==> empty.events[..i] == [];
      }
      var p := Positions(empty, settings, start, finish, working, threads, dryRun, wait);
      BarrierStep(p, threads, dryRun);
      RoomAtEachSubmit(p.events + [Barrier(p.uploading)], threads);
      Ok(p.events + [Barrier(p.uploading)])
  }
}

=== FILE: expansion.dfy ===
/** What the configuration asks to upload: each numbered position `k` of the
    range names its images in two `|`-separated settings values, `k.id` and
    `k.filename`, paired by position and collapsed through a dict. */
module Expansion {
  import opened Results
  import opened Inventory
  import opened PyText
  import opened PyCollections

  /** `settings.get('{k}.filename') or ''`. */
  function FilenameList(settings: Settings, k: int): string
  {
    if FilenameKey(k) in settings then settings[FilenameKey(k)] else ""
  }

  function ToImages(items: seq<(string, string)>): (images: seq<Image>)
  {
    seq(|items|, i requires 0 <= i < |items| => Image(items[i].0, items[i].1))
  }

  function ImageIds(images: seq<Image>): (ids: seq<string>)
  {
    seq(|images|, i requires 0 <= i < |images| => images[i].id)
  }

  /** The id/filename pairs of position `k`, before the dict collapses them. */
  function Pairs(settings: Settings, k: int): seq<(string, string)>
    requires IdKey(k) in settings
  {
    Zip(Split(settings[IdKey(k)], '|'), Split(FilenameList(settings, k), '|'))
  }

  /** The images position `k` contributes, or None when `k.id` is not set
      (the uploader then logs a warning and moves on). */
  function PositionImages(settings: Settings, k: int): (r: Option<seq<Image>>)
    ensures r.None? <==> IdKey(k) !in settings
  {
    if IdKey(k) !in settings then None
    else Some(ToImages(DictItems(Pairs(settings, k))))
  }

  /** A configured position yields at least one image and at most as many as
      the shorter of its two lists; its images are the paired ids, once each,
      in order of first appearance, and each carries the filename paired with
      the last appearance of its id. */
  lemma PositionImagesSpec(settings: Settings, k: int)
    requires IdKey(k) in settings
    ensures var ids := Split(settings[IdKey(k)], '|');
            var names := Split(FilenameList(settings, k), '|');
            var images := PositionImages(settings, k).value;
            && 1 <= |images|
            && |images| <= |ids| && |images| <= |names|
            && ImageIds(images) == Dedup(ids[..|Pairs(settings, k)|])
            && NoDuplicates(ImageIds(images))
            && forall i :: 0 <= i < |images| ==>
                 images[i].id in Keys(Pairs(settings, k)) &&
                 images[i].filename == LastValue(Pairs(settings, k), images[i].id)
  {
    var ids := Split(settings[IdKey(k)], '|');
    var pairs := Pairs(settings, k);
    var items := DictItems(pairs);
    var images := PositionImages(settings, k).value;
    DictItemsSpec(pairs);
    assert Keys(pairs) == ids[..|pairs|];
    DedupSpec(Keys(pairs));
    assert ImageIds(images) == Keys(items);
    assert ids[0] in Keys(pairs) by {
      assert Keys(pairs)[0] == ids[0];
    }
    assert ids[0] in Dedup(Keys(pairs));
  }

  /** Without a `k.filename` setting only the first id is uploaded, with an
      empty filename: `''.split('|')` is `['']` and zip stops there. */
  lemma MissingFilenameKey(settings: Settings, k: int)
    requires IdKey(k) in settings && FilenameKey(k) !in settings
    ensures PositionImages(settings, k) == Some([Image(Split(settings[IdKey(k)], '|')[0], "")])
  {
    var ids := Split(settings[IdKey(k)], '|');
    var pairs := Pairs(settings, k);
    assert Split("", '|') == [""];
    assert pairs == [(ids[0], "")];
    assert pairs[..0] == [];
    var empty: seq<(string, string)> := [];
    assert Keys(empty) == [];
    assert DictItems(pairs) == Store(empty, ids[0], "") == [(ids[0], "")];
    assert ToImages([(ids[0], "")]) == [Image(ids[0], "")];
  }

  /** All images the range `[k, finish]` asks for, position by position. */
  function Desired(settings: Settings, k: int, finish: int): seq<Image>
    decreases finish - k + 1
  {
    if k > finish then []
    else
      match PositionImages(settings, k)
      case None => Desired(settings, k + 1, finish)
      case Some(images) => images + Desired(settings, k + 1, finish)
  }

  /** Positions of the range without a `k.id` setting, one warning each, in
      range order. */
  function Unconfigured(settings: Settings, k: int, finish: int): (r: seq<int>)
    ensures forall j :: j in r <==> k <= j <= finish && IdKey(j) !in settings
    ensures forall i, j :: 0 <= i < j < |r| ==> r[i] < r[j]
    decreases finish - k + 1
  {
    if k > finish then []
    else if IdKey(k) in settings then Unconfigured(settings, k + 1, finish)
    else
      var rest := Unconfigured(settings, k + 1, finish);
      assert forall j :: 0 <= j < |rest| ==> k < rest[j] by {
        forall j | 0 <= j < |rest| ensures k < rest[j] {
          assert rest[j] in rest;
        }
      }
      [k] + rest
  }

  /** The desired images that pass the upload check: those whose id is not
      in the working view of existing images. */
  function Uploads(desired: seq<Image>, working: seq<ExistingImage>): (r: seq<Image>)
    ensures forall img :: img in r <==> img in desired && !HasId(working, img.id)
    ensures |r| <= |desired|
  {
    if |desired| == 0 then []
    else
      (if HasId(working, desired[0].id) then [] else [desired[0]])
      + Uploads(desired[1..], working)
  }

  lemma {:induction false} UploadsAppend(a: seq<Image>, b: seq<Image>, working: seq<ExistingImage>)
    ensures Uploads(a + b, working) == Uploads(a, working) + Uploads(b, working)
    decreases |a|
  {
    if |a| > 0 {
      assert (a + b)[1..] == a[1..] + b;
      UploadsAppend(a[1..], b, working);
    } else {
      assert a + b == b;
    }
  }

  // Scenarios

  lemma SplitTwo(a: string, b: string)
    requires '|' !in a && '|' !in b
    ensures Split(a + "|" + b, '|') == [a, b]
  {
    SplitAtFirst(a, b, '|');
    SplitWithoutSeparator(b, '|');
  }

  lemma SplitThree(a: string, b: string, c: string)
    requires '|' !in a && '|' !in b && '|' !in c
    ensures Split(a + "|" + b + "|" + c, '|') == [a, b, c]
  {
    assert a + "|" + b + "|" + c == a + ['|'] + (b + "|" + c);
    SplitAtFirst(a, b + "|" + c, '|');
    SplitTwo(b, c);
  }

  /** Two ids and two filenames pair up one to one. */
  lemma ScenarioPairs()
    ensures PositionImages(map["2.id" := "a|b", "2.filename" := "x|y"], 2)
         == Some([Image("a", "x"), Image("b", "y")])
  {
    var pairs := [("a", "x"), ("b", "y")];
    TwoByTwoPairs();
    TwoDistinctItems();
    assert ToImages(pairs) == [Image("a", "x"), Image("b", "y")];
  }

  lemma TwoByTwoPairs()
    ensures IdKey(2) in map["2.id" := "a|b", "2.filename" := "x|y"]
    ensures Pairs(map["2.id" := "a|b", "2.filename" := "x|y"], 2) == [("a", "x"), ("b", "y")]
  {
    assert Split("a|b", '|') == ["a", "b"] by {
      SplitTwo("a", "b");
    }
    assert Split("x|y", '|') == ["x", "y"] by {
      SplitTwo("x", "y");
    }
    assert Zip(["a", "b"], ["x", "y"]) == [("a", "x"), ("b", "y")];
    KeysOfTwo();
    PairsOfSettings(map["2.id" := "a|b", "2.filename" := "x|y"], 2, "a|b", "x|y", [("a", "x"), ("b", "y")]);
  }

  lemma TwoDistinctItems()
    ensures DictItems([("a", "x"), ("b", "y")]) == [("a", "x"), ("b", "y")]
  {
    var pairs := [("a", "x"), ("b", "y")];
    assert pairs[..1] == [("a", "x")] && [("a", "x")][..0] == [];
    assert DictItems([("a", "x")]) == [("a", "x")];
    assert Keys([("a", "x")]) == ["a"];
  }

  /** A second id without a filename is dropped. */
  lemma ScenarioTruncated()
    ensures PositionImages(map["2.id" := "a|b", "2.filename" := "x"], 2)
         == Some([Image("a", "x")])
  {
    var pairs := [("a", "x")];
    TruncatedPairs();
    assert DictItems(pairs) == pairs by {
      assert pairs[..0] == [];
    }
    assert ToImages(pairs) == [Image("a", "x")];
  }

  lemma TruncatedPairs()
    ensures IdKey(2) in map["2.id" := "a|b", "2.filename" := "x"]
    ensures Pairs(map["2.id" := "a|b", "2.filename" := "x"], 2) == [("a", "x")]
  {
    assert Split("a|b", '|') == ["a", "b"] by {
      SplitTwo("a", "b");
    }
    assert Split("x", '|') == ["x"] by {
      SplitWithoutSeparator("x", '|');
    }
    assert Zip(["a", "b"], ["x"]) == [("a", "x")];
    KeysOfTwo();
    PairsOfSettings(map["2.id" := "a|b", "2.filename" := "x"], 2, "a|b", "x", [("a", "x")]);
  }

  lemma KeysOfTwo()
    ensures IdKey(2) == "2.id" && FilenameKey(2) == "2.filename"
  {
    assert PyText.IntToDecimal(2) == "2";
  }

  /** The pairs of a position whose two settings are given. */
  lemma PairsOfSettings(settings: Settings, k: int, ids: string, names: string,
                        pairs: seq<(string, string)>)
    requires settings == map[IdKey(k) := ids, FilenameKey(k) := names]
    requires Zip(Split(ids, '|'), Split(names, '|')) == pairs
    ensures IdKey(k) in settings && Pairs(settings, k) == pairs
  {
    KeysIdentifyPosition(k, k);
  }

  /** A repeated id keeps its first place and its last filename. */
  lemma ScenarioRepeatedId()
    ensures PositionImages(map["1.id" := "a|b|a", "1.filename" := "x|y|z"], 1)
         == Some([Image("a", "z"), Image("b", "y")])
  {
    RepeatedIdPairs();
    RepeatedIdItems();
    assert ToImages([("a", "z"), ("b", "y")]) == [Image("a", "z"), Image("b", "y")];
  }

  lemma RepeatedIdPairs()
    ensures IdKey(1) in map["1.id" := "a|b|a", "1.filename" := "x|y|z"]
    ensures Pairs(map["1.id" := "a|b|a", "1.filename" := "x|y|z"], 1)
         == [("a", "x"), ("b", "y"), ("a", "z")]
  {
    var settings := map["1.id" := "a|b|a", "1.filename" := "x|y|z"];
    assert IdKey(1) == "1.id" && FilenameKey(1) == "1.filename";
    SplitThree("a", "b", "a");
    SplitThree("x", "y", "z");
    assert "a|b|a" == "a" + "|" + "b" + "|" + "a";
    assert "x|y|z" == "x" + "|" + "y" + "|" + "z";
  }

  lemma RepeatedIdItems()
    ensures DictItems([("a", "x"), ("b", "y"), ("a", "z")]) == [("a", "z"), ("b", "y")]
  {
    var pairs := [("a", "x"), ("b", "y"), ("a", "z")];
    var d2 := [("a", "x"), ("b", "y")];
    assert pairs[..2] == d2;
    assert d2[..1] == [("a", "x")] && [("a", "x")][..0] == [];
    assert DictItems(d2) == d2;
    assert Keys(d2) == ["a", "b"];
    assert Store(d2, "a", "z") == [("a", "z"), ("b", "y")];
  }

  /** The same id at two positions is asked for twice, and with an empty
      working view both pass the upload check: nothing deduplicates across
      positions. */
  lemma SameIdTwice()
    ensures Uploads(Desired(map["1.id" := "a", "2.id" := "a"], 1, 2), [])
         == [Image("a", ""), Image("a", "")]
  {
    var settings := map["1.id" := "a", "2.id" := "a"];
    var img := Image("a", "");
    assert IdKey(1) == "1.id" && FilenameKey(1) == "1.filename";
    KeysOfTwo();
    SplitWithoutSeparator("a", '|');
    MissingFilenameKey(settings, 1);
    MissingFilenameKey(settings, 2);
    assert Desired(settings, 3, 2) == [];
    assert Desired(settings, 1, 2) == [img, img];
    UploadsWithoutClash([img, img], []);
  }

  /** With no clash against the working view, the upload check lets every
      desired image through, in order. */
  lemma {:induction false} UploadsWithoutClash(desired: seq<Image>, working: seq<ExistingImage>)
    requires forall img :: img in desired ==> !HasId(working, img.id)
    ensures Uploads(desired, working) == desired
    decreases |desired|
  {
    if |desired| > 0 {
      assert desired[0] in desired;
      forall img | img in desired[1..] ensures !HasId(working, img.id) {
        assert img in desired;
      }
      UploadsWithoutClash(desired[1..], working);
      assert [desired[0]] + desired[1..] == desired;
    }
  }
}

=== FILE: inventory.dfy ===
/** The entities of the uploader: images it wants on the workspace, images the
    workspace already has, and the settings keys that describe a numbered
    position of the configuration. */
module Inventory {
  import PyText

  /** An image the configuration asks for: its emoji name and the file to
      upload, relative to the upload folder. */
  datatype Image = Image(id: string, filename: string)

  /** The removal form of one row of the workspace's emoji table. The model
      never looks inside it; two handles are the same exactly when they stand
      for the same parsed form element. */
  datatype Handle = Handle(token: nat)

  /** An image the workspace already has, with the form that deletes it. */
  datatype ExistingImage = ExistingImage(id: string, removeForm: Handle)

  /** The settings of the chosen profile, already read and merged. */
  type Settings = map<string, string>

  /** `'{}.id'.format(k)`. */
  function IdKey(k: int): string
  {
    PyText.IntToDecimal(k) + ".id"
  }

  /** `'{}.filename'.format(k)`. */
  function FilenameKey(k: int): string
  {
    PyText.IntToDecimal(k) + ".filename"
  }

  /** Each position reads its own keys: distinct positions give distinct
      id keys and distinct filename keys, and no id key is a filename key. */
  lemma KeysIdentifyPosition(a: int, b: int)
    ensures IdKey(a) == IdKey(b) <==> a == b
    ensures FilenameKey(a) == FilenameKey(b) <==> a == b
    ensures IdKey(a) != FilenameKey(b)
  {
    var da, db := PyText.IntToDecimal(a), PyText.IntToDecimal(b);
    if IdKey(a) == IdKey(b) {
      assert da == IdKey(a)[..|IdKey(a)| - 3];
      assert db == IdKey(b)[..|IdKey(b)| - 3];
      PyText.IntToDecimalInjective(a, b);
    }
    if FilenameKey(a) == FilenameKey(b) {
      assert da == FilenameKey(a)[..|FilenameKey(a)| - 9];
      assert db == FilenameKey(b)[..|FilenameKey(b)| - 9];
      PyText.IntToDecimalInjective(a, b);
    }
    assert IdKey(a)[|IdKey(a)| - 1] == 'd';
    assert FilenameKey(b)[|FilenameKey(b)| - 1] == 'e';
  }

  /** The ids of a list of existing images, in order. */
  function Ids(images: seq<ExistingImage>): (ids: seq<string>)
  {
    seq(|images|, i requires 0 <= i < |images| => images[i].id)
  }

  /** The rows a list of ids and a list of removal forms make up, paired
      position by position. */
  function Rows(ids: seq<string>, forms: seq<Handle>): (rows: seq<ExistingImage>)
    requires |ids| == |forms|
  {
    seq(|ids|, i requires 0 <= i < |ids| => ExistingImage(ids[i], forms[i]))
  }

  /** `id in (image.id for image in images)`. */
  predicate HasId(images: seq<ExistingImage>, id: string)
  {
    exists i :: 0 <= i < |images| && images[i].id == id
  }
}

=== FILE: pycollections.dfy ===
/** Python's `zip` and `dict` as the uploader uses them: `dict(zip(ids, names))`
    followed by `.items()`. A dict is modelled by its item sequence in
    insertion order. */
module PyCollections {

  predicate NoDuplicates<T(==)>(xs: seq<T>)
  {
    forall i, j :: 0 <= i < j < |xs| ==> xs[i] != xs[j]
  }

  /** `list(zip(a, b))`: pairs positionally, truncated to the shorter input. */
  function Zip<A, B>(a: seq<A>, b: seq<B>): (r: seq<(A, B)>)
    ensures |r| == if |a| <= |b| then |a| else |b|
    ensures forall i :: 0 <= i < |r| ==> r[i] == (a[i], b[i])
    decreases |a|
  {
    if |a| == 0 || |b| == 0 then [] else [(a[0], b[0])] + Zip(a[1..], b[1..])
  }

  function Keys<K, V>(items: seq<(K, V)>): (ks: seq<K>)
  {
    seq(|items|, i requires 0 <= i < |items| => items[i].0)
  }

  /** Index of the first occurrence of `x` in `xs`. */
  function FirstIndex<T(==)>(xs: seq<T>, x: T): (i: nat)
    requires x in xs
    ensures i < |xs| && xs[i] == x && x !in xs[..i]
  {
    if xs[0] == x then 0 else 1 + FirstIndex(xs[1..], x)
  }

  /** The distinct elements of `xs`, each at the place of its first
      occurrence; this is the key order of a dict built from `xs`. */
  function Dedup<T(==)>(xs: seq<T>): (r: seq<T>)
    decreases |xs|
  {
    if |xs| == 0 then []
    else
      var init := Dedup(xs[..|xs| - 1]);
      if xs[|xs| - 1] in init then init else init + [xs[|xs| - 1]]
  }

  /** Dedup keeps exactly the elements of its input, each once, in the order
      of their first occurrences. */
  lemma {:induction false} DedupSpec<T>(xs: seq<T>)
    ensures forall x :: x in Dedup(xs) <==> x in xs
    ensures NoDuplicates(Dedup(xs))
    ensures |Dedup(xs)| <= |xs|
    ensures forall i, j :: 0 <= i < j < |Dedup(xs)| ==>
              FirstIndex(xs, Dedup(xs)[i]) < FirstIndex(xs, Dedup(xs)[j])
    decreases |xs|
  {
    if |xs| > 0 {
      var init := xs[..|xs| - 1];
      var x := xs[|xs| - 1];
      DedupSpec(init);
      assert xs == init + [x];
      forall y | y in init
        ensures FirstIndex(xs, y) == FirstIndex(init, y)
      {
        FirstIndexPrefix(init, [x], y);
      }
      if x !in init {
        assert FirstIndex(xs, x) == |init| by {
          assert x !in xs[..|init|];
        }
        forall y | y in init
          ensures FirstIndex(xs, y) < FirstIndex(xs, x)
        {
        }
      }
    }
  }

  lemma {:induction false} FirstIndexPrefix<T>(a: seq<T>, b: seq<T>, y: T)
    requires y in a
    ensures FirstIndex(a + b, y) == FirstIndex(a, y)
    decreases |a|
  {
    if a[0] != y {
      assert (a + b)[1..] == a[1..] + b;
      FirstIndexPrefix(a[1..], b, y);
    }
  }

  /** `d[k] = v` on a dict with items `items`: an existing key keeps its
      place and takes the new value; a new key goes last. */
  function Store<K(==), V>(items: seq<(K, V)>, k: K, v: V): seq<(K, V)>
  {
    if k in Keys(items) then
      seq(|items|, i requires 0 <= i < |items| => if items[i].0 == k then (k, v) else items[i])
    else
      items + [(k, v)]
  }

  /** `list(dict(pairs).items())`. */
  function DictItems<K(==), V>(pairs: seq<(K, V)>): seq<(K, V)>
    decreases |pairs|
  {
    if |pairs| == 0 then []
    else
      var last := pairs[|pairs| - 1];
      Store(DictItems(pairs[..|pairs| - 1]), last.0, last.1)
  }

  /** The value of the last pair with key `k`. */
  function LastValue<K(==), V>(pairs: seq<(K, V)>, k: K): V
    requires k in Keys(pairs)
    decreases |pairs|
  {
    if pairs[|pairs| - 1].0 == k then pairs[|pairs| - 1].1
    else
      assert k in Keys(pairs[..|pairs| - 1]) by {
        var i :| 0 <= i < |pairs| && Keys(pairs)[i] == k;
        assert Keys(pairs[..|pairs| - 1])[i] == k;
      }
      LastValue(pairs[..|pairs| - 1], k)
  }

  /** A dict built from pairs has the pairs' keys once each, in order of
      first occurrence, and each key carries the value of its last pair. */
  lemma {:induction false} DictItemsSpec<K, V>(pairs: seq<(K, V)>)
    ensures Keys(DictItems(pairs)) == Dedup(Keys(pairs))
    ensures forall i :: 0 <= i < |DictItems(pairs)| ==>
              DictItems(pairs)[i].0 in Keys(pairs) &&
              DictItems(pairs)[i].1 == LastValue(pairs, DictItems(pairs)[i].0)
    decreases |pairs|
  {
    if |pairs| > 0 {
      var init := pairs[..|pairs| - 1];
      var last := pairs[|pairs| - 1];
      var d := DictItems(init);
      DictItemsSpec(init);
      assert Keys(pairs) == Keys(init) + [last.0];
      assert Keys(pairs)[..|pairs| - 1] == Keys(init);
      DedupSpec(Keys(init));
      var r := DictItems(pairs);
      assert r == Store(d, last.0, last.1);
      forall i | 0 <= i < |r|
        ensures r[i].0 in Keys(pairs) && r[i].1 == LastValue(pairs, r[i].0)
      {
        if i < |d| && r[i].0 != last.0 {
          assert r[i] == d[i];
          assert Keys(init)[FirstIndex(Keys(init), d[i].0)] == d[i].0;
          assert Keys(pairs)[FirstIndex(Keys(init), d[i].0)] == d[i].0;
        } else {
          assert r[i].0 == last.0;
          assert Keys(pairs)[|pairs| - 1] == last.0;
        }
      }
    }
  }

  /** `n` copies of `x`. */
  function Repeat<T>(x: T, n: nat): (r: seq<T>)
    ensures |r| == n
    ensures forall i :: 0 <= i < n ==> r[i] == x
  {
    seq(n, _ => x)
  }
}

=== FILE: pytext.dfy ===
/** The few Python string builtins the uploader relies on, with their exact
    semantics: `str.split` on a one-character separator, `str.join`, and
    `str(int)` as used by `'{}'.format(k)`. */
module PyText {

  /** `s.split(sep)`: never empty, and an empty string gives `[""]`;
      consecutive separators give empty pieces. */
  function Split(s: string, sep: char): (parts: seq<string>)
    ensures |parts| >= 1
    ensures forall i :: 0 <= i < |parts| ==> sep !in parts[i]
    decreases |s|
  {
    if |s| == 0 then [""]
    else
      var rest := Split(s[1..], sep);
      if s[0] == sep then [""] + rest
      else [[s[0]] + rest[0]] + rest[1..]
  }

  /** `sep.join(parts)`. */
  function Join(parts: seq<string>, sep: string): string
  {
    if |parts| == 0 then "" else parts[0] + Separated(parts[1..], sep)
  }

  /** Each part preceded by the separator: the tail of a join. */
  function Separated(parts: seq<string>, sep: string): string
  {
    if |parts| == 0 then "" else sep + parts[0] + Separated(parts[1..], sep)
  }

  /** Joining the pieces of a split with the same separator gives back the
      original string. */
  lemma {:induction false} JoinSplit(s: string, sep: char)
    ensures Join(Split(s, sep), [sep]) == s
    decreases |s|
  {
    if |s| > 0 {
      var rest := Split(s[1..], sep);
      JoinSplit(s[1..], sep);
      var j := Join(rest, [sep]);
      var tail := Separated(rest[1..], [sep]);
      assert j == rest[0] + tail;
      assert s == [s[0]] + j;
      if s[0] == sep {
        assert Split(s, sep) == [""] + rest;
        assert ([""] + rest)[1..] == rest;
        assert Separated(rest, [sep]) == [sep] + rest[0] + tail;
        assert [sep] + rest[0] + tail == [sep] + (rest[0] + tail);
        assert Join([""] + rest, [sep]) == "" + Separated(rest, [sep]);
      } else {
        var parts := [[s[0]] + rest[0]] + rest[1..];
        assert Split(s, sep) == parts;
        assert parts[1..] == rest[1..];
        assert Join(parts, [sep]) == [s[0]] + rest[0] + tail;
        assert [s[0]] + rest[0] + tail == [s[0]] + (rest[0] + tail);
      }
    }
  }

  /** The number of pieces is one more than the number of separators. */
  lemma {:induction false} SplitCount(s: string, sep: char)
    ensures |Split(s, sep)| == multiset(s)[sep] + 1
    decreases |s|
  {
    if |s| > 0 {
      SplitCount(s[1..], sep);
      assert s == [s[0]] + s[1..];
      assert multiset(s) == multiset([s[0]]) + multiset(s[1..]);
    }
  }

  /** A string without the separator splits into itself alone. */
  lemma {:induction false} SplitWithoutSeparator(p: string, sep: char)
    requires sep !in p
    ensures Split(p, sep) == [p]
    decreases |p|
  {
    if |p| > 0 {
      assert sep !in p[1..];
      SplitWithoutSeparator(p[1..], sep);
      assert [p[0]] + p[1..] == p;
    }
  }

  /** Splitting stops at the first separator. */
  lemma {:induction false} SplitAtFirst(p: string, t: string, sep: char)
    requires sep !in p
    ensures Split(p + [sep] + t, sep) == [p] + Split(t, sep)
    decreases |p|
  {
    var s := p + [sep] + t;
    if |p| == 0 {
      assert s == [sep] + t;
      assert s[1..] == t;
    } else {
      assert sep !in p[1..];
      SplitAtFirst(p[1..], t, sep);
      assert s[1..] == p[1..] + [sep] + t;
      assert [p[0]] + p[1..] == p;
    }
  }

  /** Splitting a join of separator-free pieces recovers the pieces. */
  lemma {:induction false} SplitJoin(parts: seq<string>, sep: char)
    requires |parts| >= 1
    requires forall i :: 0 <= i < |parts| ==> sep !in parts[i]
    ensures Split(Join(parts, [sep]), sep) == parts
    decreases |parts|
  {
    var rest := parts[1..];
    if |rest| == 0 {
      assert Join(parts, [sep]) == parts[0];
      SplitWithoutSeparator(parts[0], sep);
      assert parts == [parts[0]];
    } else {
      SplitJoin(rest, sep);
      assert rest[1..] == parts[2..];
      assert Separated(rest, [sep]) == [sep] + Join(rest, [sep]);
      assert Join(parts, [sep]) == parts[0] + [sep] + Join(rest, [sep]);
      SplitAtFirst(parts[0], Join(rest, [sep]), sep);
      assert parts == [parts[0]] + rest;
    }
  }

  // ---------------------------------------------------------------------
  // str(int)

  function DigitChar(d: nat): (c: char)
    requires d < 10
    ensures '0' <= c <= '9'
  {
    (48 + d) as char
  }

  function DigitValue(c: char): nat
  {
    if '0' <= c <= '9' then (c as int - 48) else 0
  }

  /** Decimal digits of a natural number, most significant first, no
      leading zero. */
  function NatToDecimal(n: nat): (s: string)
    ensures |s| >= 1
    ensures forall i :: 0 <= i < |s| ==> '0' <= s[i] <= '9'
    ensures n > 0 ==> s[0] != '0'
    ensures n == 0 ==> s == "0"
    decreases n
  {
    if n < 10 then [DigitChar(n)] else NatToDecimal(n / 10) + [DigitChar(n % 10)]
  }

  /** `str(k)` for a Python int: a leading `-` for negative numbers. */
  function IntToDecimal(k: int): string
  {
    if k < 0 then "-" + NatToDecimal(-k) else NatToDecimal(k)
  }

  function ParseNat(s: string): nat
    decreases |s|
  {
    if |s| == 0 then 0 else ParseNat(s[..|s| - 1]) * 10 + DigitValue(s[|s| - 1])
  }

  /** `int(s)` on the strings `str` produces. */
  function ParseInt(s: string): int
  {
    if |s| > 0 && s[0] == '-' then 0 - ParseNat(s[1..]) as int else ParseNat(s)
  }

  lemma {:induction false} NatRoundTrip(n: nat)
    ensures ParseNat(NatToDecimal(n)) == n
    decreases n
  {
    var s := NatToDecimal(n);
    if n < 10 {
      assert s[..0] == [];
    } else {
      NatRoundTrip(n / 10);
      assert s[..|s| - 1] == NatToDecimal(n / 10);
    }
  }

  /** `int(str(k)) == k`: the decimal rendering loses nothing. */
  lemma IntRoundTrip(k: int)
    ensures ParseInt(IntToDecimal(k)) == k
  {
    if k < 0 {
      var s := "-" + NatToDecimal(-k);
      assert s[1..] == NatToDecimal(-k);
      NatRoundTrip(-k);
    } else {
      NatRoundTrip(k);
    }
  }

  /** Distinct integers render as distinct strings. */
  lemma IntToDecimalInjective(a: int, b: int)
    ensures IntToDecimal(a) == IntToDecimal(b) <==> a == b
  {
    if IntToDecimal(a) == IntToDecimal(b) {
      IntRoundTrip(a);
      IntRoundTrip(b);
    }
  }
}

=== FILE: removal.dfy ===
/** The removal phase: which existing images the numbered range lists for
    removal, which removal forms get posted, and the working view of
    existing images that the upload phase checks against afterwards. */
module Removal {
  import opened Results
  import opened Inventory
  import opened PyText
  import opened PyCollections

  /** Position `k` lists `id`: `k.id` is set and `id` is one of its
      `|`-separated entries. */
  predicate Listed(settings: Settings, k: int, id: string)
  {
    IdKey(k) in settings && id in Split(settings[IdKey(k)], '|')
  }

  /** The positions of `[start, finish]` that list `id`. */
  function ListingPositions(settings: Settings, id: string, start: int, finish: int): set<int>
  {
    set k | start <= k <= finish && Listed(settings, k, id)
  }

  /** Some position of `[start, finish]` lists `id`. */
  predicate Selected(settings: Settings, id: string, start: int, finish: int)
  {
    exists k :: start <= k <= finish && Listed(settings, k, id)
  }

  lemma SelectedIffListingPositions(settings: Settings, id: string, start: int, finish: int)
    ensures Selected(settings, id, start, finish) <==> ListingPositions(settings, id, start, finish) != {}
  {
    if Selected(settings, id, start, finish) {
      var k :| start <= k <= finish && Listed(settings, k, id);
      assert k in ListingPositions(settings, id, start, finish);
    }
  }

  /** The copies of `e` the inner loop over `range(k, finish + 1)` produces:
      one per position listing its id. */
  function Hits(e: ExistingImage, settings: Settings, k: int, finish: int): seq<ExistingImage>
    decreases finish - k + 1
  {
    if k > finish then []
    else (if Listed(settings, k, e.id) then [e] else []) + Hits(e, settings, k + 1, finish)
  }

  /** `images_to_remove`: for each existing image in order, one copy per
      position of the range that lists its id. */
  function Selection(existing: seq<ExistingImage>, settings: Settings, start: int, finish: int)
    : seq<ExistingImage>
  {
    if |existing| == 0 then []
    else Hits(existing[0], settings, start, finish) + Selection(existing[1..], settings, start, finish)
  }

  /** Peeling the first position off a range of listing positions. */
  lemma ListingPositionsStep(settings: Settings, id: string, k: int, finish: int)
    ensures k > finish ==> ListingPositions(settings, id, k, finish) == {}
    ensures k <= finish ==>
              ListingPositions(settings, id, k, finish)
              == (if Listed(settings, k, id) then {k} else {}) + ListingPositions(settings, id, k + 1, finish)
    ensures k !in ListingPositions(settings, id, k + 1, finish)
  {
  }

  /** An image's block of the selection holds exactly one copy per listing
      position. */
  lemma {:induction false} HitsAreCopies(e: ExistingImage, settings: Settings, k: int, finish: int)
    ensures Hits(e, settings, k, finish) == Repeat(e, |ListingPositions(settings, e.id, k, finish)|)
    decreases finish - k + 1
  {
    var here := ListingPositions(settings, e.id, k, finish);
    ListingPositionsStep(settings, e.id, k, finish);
    if k <= finish {
      var later := ListingPositions(settings, e.id, k + 1, finish);
      HitsAreCopies(e, settings, k + 1, finish);
      if Listed(settings, k, e.id) {
        assert |here| == |later| + 1;
        assert Repeat(e, |here|) == [e] + Repeat(e, |later|);
      } else {
        assert Hits(e, settings, k, finish) == [] + Hits(e, settings, k + 1, finish);
      }
    }
  }

  lemma RepeatCount(e: ExistingImage, n: nat, x: ExistingImage)
    ensures multiset(Repeat(e, n))[x] == if x == e then n else 0
    decreases n
  {
    if n > 0 {
      assert Repeat(e, n) == Repeat(e, n - 1) + [e];
      RepeatCount(e, n - 1, x);
    } else {
      assert Repeat(e, n) == [];
    }
  }

  /** The selection preserves existing-image order: it distributes over
      concatenation, and a single image contributes one copy per listing
      position. */
  lemma {:induction false} SelectionStructure(a: seq<ExistingImage>, b: seq<ExistingImage>,
                                              settings: Settings, start: int, finish: int)
    ensures Selection(a + b, settings, start, finish)
         == Selection(a, settings, start, finish) + Selection(b, settings, start, finish)
    ensures |a| == 1 ==>
              Selection(a, settings, start, finish)
              == Repeat(a[0], |ListingPositions(settings, a[0].id, start, finish)|)
    decreases |a|
  {
    if |a| > 0 {
      assert (a + b)[1..] == a[1..] + b;
      SelectionStructure(a[1..], b, settings, start, finish);
      HitsAreCopies(a[0], settings, start, finish);
      if |a| == 1 {
        assert a[1..] == [];
      }
    } else {
      assert a + b == b;
    }
  }

  /** Exactly one entry per pair (existing image, in-range position listing
      its id): an image listed at two positions appears twice. */
  lemma {:induction false} SelectionCount(existing: seq<ExistingImage>, settings: Settings,
                                          start: int, finish: int, x: ExistingImage)
    ensures multiset(Selection(existing, settings, start, finish))[x]
         == multiset(existing)[x] * |ListingPositions(settings, x.id, start, finish)|
    decreases |existing|
  {
    if |existing| > 0 {
      var e := existing[0];
      var rest := existing[1..];
      var n := |ListingPositions(settings, x.id, start, finish)|;
      var a := multiset([e])[x];
      var b := multiset(rest)[x];
      var h := multiset(Hits(e, settings, start, finish))[x];
      var t := multiset(Selection(rest, settings, start, finish))[x];
      assert multiset(Selection(existing, settings, start, finish))[x] == h + t by {
        assert Selection(existing, settings, start, finish)
            == Hits(e, settings, start, finish) + Selection(rest, settings, start, finish);
      }
      assert multiset(existing)[x] == a + b by {
        assert existing == [e] + rest;
      }
      assert h == a * n by {
        HitsCount(e, settings, start, finish, x);
        MulByAtMostOne(a, n);
      }
      assert t == b * n by {
        SelectionCount(rest, settings, start, finish, x);
      }
      Distribute(a, b, n);
    }
  }

  lemma HitsCount(e: ExistingImage, settings: Settings, start: int, finish: int, x: ExistingImage)
    ensures multiset(Hits(e, settings, start, finish))[x]
         == if x == e then |ListingPositions(settings, x.id, start, finish)| else 0
    ensures multiset([e])[x] <= 1
    ensures multiset([e])[x] == 1 <==> x == e
  {
    HitsAreCopies(e, settings, start, finish);
    RepeatCount(e, |ListingPositions(settings, e.id, start, finish)|, x);
  }

  /** An empty range selects nothing. */
  lemma {:induction false} SelectionEmptyRange(existing: seq<ExistingImage>, settings: Settings,
                                               start: int, finish: int)
    requires finish < start
    ensures Selection(existing, settings, start, finish) == []
    decreases |existing|
  {
    if |existing| > 0 {
      SelectionEmptyRange(existing[1..], settings, start, finish);
    }
  }

  lemma ProductPositive(m: nat, n: nat)
    ensures m * n > 0 <==> m > 0 && n > 0
  {
    if m > 0 && n > 0 {
      assert m * n >= n;
    }
  }

  lemma MulByAtMostOne(m: nat, n: nat)
    requires m <= 1
    ensures m * n == if m == 1 then n else 0
  {
  }

  lemma Distribute(a: nat, b: nat, n: nat)
    ensures (a + b) * n == a * n + b * n
  {
  }

  lemma SelectionMember(existing: seq<ExistingImage>, settings: Settings, start: int, finish: int,
                         x: ExistingImage)
    ensures x in Selection(existing, settings, start, finish)
        <==> x in existing && Selected(settings, x.id, start, finish)
  {
    var selection := Selection(existing, settings, start, finish);
    var n := |ListingPositions(settings, x.id, start, finish)|;
    var m := multiset(existing)[x];
    SelectionCount(existing, settings, start, finish, x);
    SelectedIffListingPositions(settings, x.id, start, finish);
    assert x in selection <==> multiset(selection)[x] > 0;
    assert x in existing <==> m > 0;
    assert Selected(settings, x.id, start, finish) <==> n > 0;
    ProductPositive(m, n);
  }

  /** The selection holds exactly the existing images some in-range position
      lists, and nothing when the range is empty. */
  lemma SelectionMembers(existing: seq<ExistingImage>, settings: Settings, start: int, finish: int)
    ensures forall x :: x in Selection(existing, settings, start, finish)
                    <==> x in existing && Selected(settings, x.id, start, finish)
    ensures finish < start ==> Selection(existing, settings, start, finish) == []
  {
    var selection := Selection(existing, settings, start, finish);
    forall x ensures x in selection <==> x in existing && Selected(settings, x.id, start, finish) {
      SelectionMember(existing, settings, start, finish, x);
    }
    if finish < start {
      SelectionEmptyRange(existing, settings, start, finish);
    }
  }

  // ---------------------------------------------------------------------
  // The working view

  /** The elements of `xs` that do not occur in `removed`, in order. */
  function FilterOut(xs: seq<ExistingImage>, removed: seq<ExistingImage>): (r: seq<ExistingImage>)
    ensures forall x :: x in r <==> x in xs && x !in removed
  {
    if |xs| == 0 then []
    else
      (if xs[0] in removed then [] else [xs[0]]) + FilterOut(xs[1..], removed)
  }

  lemma {:induction false} FilterOutCount(xs: seq<ExistingImage>, removed: seq<ExistingImage>, x: ExistingImage)
    ensures multiset(FilterOut(xs, removed))[x] == if x in removed then 0 else multiset(xs)[x]
    decreases |xs|
  {
    if |xs| > 0 {
      var head := if xs[0] in removed then [] else [xs[0]];
      var tail := FilterOut(xs[1..], removed);
      assert multiset(FilterOut(xs, removed))[x] == multiset(head)[x] + multiset(tail)[x] by {
        assert FilterOut(xs, removed) == head + tail;
      }
      assert multiset(xs)[x] == multiset([xs[0]])[x] + multiset(xs[1..])[x] by {
        assert xs == [xs[0]] + xs[1..];
      }
      FilterOutCount(xs[1..], removed, x);
    }
  }

  /** The existing images after the removal phase: the original list minus
      the selected images, everything else kept in order. */
  function WorkingView(existing: seq<ExistingImage>, settings: Settings, start: int, finish: int)
    : (r: seq<ExistingImage>)
    ensures forall x :: x in r <==> x in existing && !Selected(settings, x.id, start, finish)
    ensures forall x :: multiset(r)[x]
              == if Selected(settings, x.id, start, finish) then 0 else multiset(existing)[x]
  {
    var selection := Selection(existing, settings, start, finish);
    SelectionMembers(existing, settings, start, finish);
    var r := FilterOut(existing, selection);
    assert forall x :: multiset(r)[x]
              == if Selected(settings, x.id, start, finish) then 0 else multiset(existing)[x] by {
      forall x ensures multiset(r)[x]
              == if Selected(settings, x.id, start, finish) then 0 else multiset(existing)[x] {
        FilterOutCount(existing, selection, x);
        if Selected(settings, x.id, start, finish) && x !in existing {
          assert multiset(existing)[x] == 0;
        }
      }
    }
    r
  }

  /** The forms `remove()` should post: each selected image once, in order of
      first selection. */
  function ToRemove(existing: seq<ExistingImage>, settings: Settings, start: int, finish: int)
    : (r: seq<ExistingImage>)
    ensures NoDuplicates(r)
    ensures forall x :: x in r <==> x in existing && Selected(settings, x.id, start, finish)
  {
    var selection := Selection(existing, settings, start, finish);
    DedupSpec(selection);
    SelectionMembers(existing, settings, start, finish);
    Dedup(selection)
  }

  function Forms(images: seq<ExistingImage>): (forms: seq<Handle>)
  {
    seq(|images|, i requires 0 <= i < |images| => images[i].removeForm)
  }

  /** What the removal phase does: the removal forms it posts, the ids it
      reports (as "Would remove" in dry-run, as "Removing" otherwise), and
      the working view it leaves behind. */
  datatype RemovalOutcome = RemovalOutcome(posted: seq<Handle>, reported: seq<string>,
                                           working: seq<ExistingImage>)

  /** The removal phase with each selected image removed once. Dry-run posts
      nothing, yet the working view is updated all the same. A real run
      posts, alongside each reported id, the form of an existing image with
      that id: every selected image's form exactly once, and no other. */
  function RemovalPhase(existing: seq<ExistingImage>, settings: Settings, start: int, finish: int,
                        dryRun: bool): (r: RemovalOutcome)
    ensures dryRun ==> r.posted == []
    ensures !dryRun ==>
              && |r.posted| == |r.reported|
              && NoDuplicates(Rows(r.reported, r.posted))
              && forall x :: x in Rows(r.reported, r.posted)
                         <==> x in existing && Selected(settings, x.id, start, finish)
    ensures forall x :: x in r.working <==> x in existing && !Selected(settings, x.id, start, finish)
    ensures forall id :: id in r.reported <==> HasId(existing, id) && Selected(settings, id, start, finish)
  {
    var targets := ToRemove(existing, settings, start, finish);
    assert forall id :: id in Ids(targets) <==> HasId(existing, id) && Selected(settings, id, start, finish) by {
      forall id ensures id in Ids(targets) <==> HasId(existing, id) && Selected(settings, id, start, finish) {
        if HasId(existing, id) && Selected(settings, id, start, finish) {
          var i :| 0 <= i < |existing| && existing[i].id == id;
          assert existing[i] in targets;
          var j :| 0 <= j < |targets| && targets[j] == existing[i];
          assert Ids(targets)[j] == id;
        }
      }
    }
    assert Rows(Ids(targets), Forms(targets)) == targets;
    RemovalOutcome(if dryRun then [] else Forms(targets), Ids(targets),
                   WorkingView(existing, settings, start, finish))
  }

  // ---------------------------------------------------------------------
  // The removal phase as written: `existing_images.remove(image)` once per
  // entry of the selection, duplicates included.

  /** `xs.remove(x)`: drops the first element equal to `x`, or raises
      ValueError when there is none. */
  function ListRemove(xs: seq<ExistingImage>, x: ExistingImage): (r: Result<seq<ExistingImage>>)
    ensures r.Ok? <==> x in xs
    ensures r.Err? ==> r.error == RemoveNotInList
    ensures r.Ok? ==> exists i :: 0 <= i < |xs| && xs[i] == x && x !in xs[..i]
                                && r.value == xs[..i] + xs[i + 1..]
    ensures r.Ok? ==> multiset(r.value) == multiset(xs) - multiset{x}
  {
    if x in xs then
      var i := FirstIndex(xs, x);
      assert xs == xs[..i] + [x] + xs[i + 1..];
      Ok(xs[..i] + xs[i + 1..])
    else Err(RemoveNotInList)
  }

  /** `for image in selection: xs.remove(image)`: completes exactly when
      `xs` holds every entry as often as the selection does, and then takes
      those copies out. */
  function RemoveEach(xs: seq<ExistingImage>, selection: seq<ExistingImage>)
    : (r: Result<seq<ExistingImage>>)
    ensures r.Ok? <==> multiset(selection) <= multiset(xs)
    ensures r.Err? ==> r.error == RemoveNotInList
    ensures r.Ok? ==> multiset(r.value) == multiset(xs) - multiset(selection)
    decreases |selection|
  {
    if |selection| == 0 then Ok(xs)
    else
      RemoveStep(xs, selection);
      var rest :- ListRemove(xs, selection[0]);
      RemoveEach(rest, selection[1..])
  }

  /** Removing the first entry, then the others, is removing them all. */
  lemma RemoveStep(xs: seq<ExistingImage>, selection: seq<ExistingImage>)
    requires |selection| > 0
    ensures var x, all, tail := selection[0], multiset(xs), multiset(selection[1..]);
            && (multiset(selection) <= all <==> x in xs && tail <= all - multiset{x})
            && all - multiset{x} - tail == all - multiset(selection)
  {
    var x, all, tail := selection[0], multiset(xs), multiset(selection[1..]);
    assert selection == [x] + selection[1..];
    assert multiset(selection) == multiset{x} + tail;
    if multiset(selection) <= all {
      assert x in all;
      forall y ensures tail[y] <= (all - multiset{x})[y] {
        assert multiset(selection)[y] <= all[y];
      }
    }
    if x in xs && tail <= all - multiset{x} {
      TakeOneBack(x, all, all - multiset{x}, tail);
    }
  }

  /** Some existing image is listed at two positions of the range. */
  predicate ListedTwice(existing: seq<ExistingImage>, settings: Settings, start: int, finish: int)
  {
    exists e :: e in existing && |ListingPositions(settings, e.id, start, finish)| >= 2
  }

  /** The removal phase as the uploader runs it: the posted forms, the
      reported ids, and the outcome of the deletion loop. */
  datatype AsWrittenOutcome = AsWrittenOutcome(posted: seq<Handle>, reported: seq<string>,
                                               working: Result<seq<ExistingImage>>)

  /** The removal phase as the uploader runs it: `remove()` posts the form of
      every selection entry, then the deletion loop runs in both modes. The
      loop raises exactly when some existing image is listed at two positions
      of the range; otherwise it leaves the working view's elements. */
  function RemovalPhaseAsWritten(existing: seq<ExistingImage>, settings: Settings, start: int,
                                 finish: int, dryRun: bool): (r: AsWrittenOutcome)
    ensures dryRun ==> r.posted == []
    ensures !dryRun ==> r.posted == Forms(Selection(existing, settings, start, finish))
    ensures forall id :: id in r.reported <==> HasId(existing, id) && Selected(settings, id, start, finish)
    ensures r.working.Err? <==> ListedTwice(existing, settings, start, finish)
    ensures r.working.Err? ==> r.working.error == RemoveNotInList
    ensures r.working.Ok? ==>
              && multiset(r.working.value) == multiset(WorkingView(existing, settings, start, finish))
              && forall x :: x in r.working.value <==> x in existing && !Selected(settings, x.id, start, finish)
  {
    var selection := Selection(existing, settings, start, finish);
    SelectionIds(existing, settings, start, finish);
    AsWrittenWorking(existing, settings, start, finish);
    AsWrittenOutcome(if dryRun then [] else Forms(selection), Ids(selection),
                     RemoveEach(existing, selection))
  }

  lemma SelectionIds(existing: seq<ExistingImage>, settings: Settings, start: int, finish: int)
    ensures var ids := Ids(Selection(existing, settings, start, finish));
            forall id :: id in ids <==> HasId(existing, id) && Selected(settings, id, start, finish)
  {
    var selection := Selection(existing, settings, start, finish);
    SelectionMembers(existing, settings, start, finish);
    forall id ensures id in Ids(selection) <==> HasId(existing, id) && Selected(settings, id, start, finish) {
      if id in Ids(selection) {
        var j :| 0 <= j < |selection| && Ids(selection)[j] == id;
        assert selection[j] in selection;
        var i :| 0 <= i < |existing| && existing[i] == selection[j];
      }
      if HasId(existing, id) && Selected(settings, id, start, finish) {
        var i :| 0 <= i < |existing| && existing[i].id == id;
        assert existing[i] in selection;
        var j :| 0 <= j < |selection| && selection[j] == existing[i];
        assert Ids(selection)[j] == id;
      }
    }
  }

  /** The deletion loop over the selection, counted per image: an image
      with `m` rows listed at `n` positions is removed `m * n` times. */
  lemma AsWrittenWorking(existing: seq<ExistingImage>, settings: Settings, start: int, finish: int)
    ensures var r := RemoveEach(existing, Selection(existing, settings, start, finish));
            && (r.Err? <==> ListedTwice(existing, settings, start, finish))
            && (r.Ok? ==> multiset(r.value) == multiset(WorkingView(existing, settings, start, finish)))
            && (r.Ok? ==> forall x :: x in r.value <==> x in existing && !Selected(settings, x.id, start, finish))
  {
    var selection := Selection(existing, settings, start, finish);
    var r := RemoveEach(existing, selection);
    var view := WorkingView(existing, settings, start, finish);
    if r.Err? {
      var x :| multiset(selection)[x] > multiset(existing)[x];
      EnoughCopiesIff(existing, settings, start, finish, x);
    } else {
      forall e | e in existing ensures |ListingPositions(settings, e.id, start, finish)| <= 1 {
        EnoughCopiesIff(existing, settings, start, finish, e);
      }
      forall x ensures multiset(r.value)[x] == multiset(view)[x] {
        RemainingCopies(existing, settings, start, finish, x);
      }
      assert multiset(r.value) == multiset(view);
      forall x ensures x in r.value <==> x in view {
        assert x in r.value <==> x in multiset(r.value);
        assert x in view <==> x in multiset(view);
      }
    }
  }

  /** The selection holds no more copies of `x` than the table exactly when
      `x` is absent or listed at most once. */
  lemma EnoughCopiesIff(existing: seq<ExistingImage>, settings: Settings, start: int, finish: int,
                        x: ExistingImage)
    ensures multiset(Selection(existing, settings, start, finish))[x] <= multiset(existing)[x]
        <==> (x in existing ==> |ListingPositions(settings, x.id, start, finish)| <= 1)
  {
    SelectionCount(existing, settings, start, finish, x);
    MulAtMostSelf(multiset(existing)[x], |ListingPositions(settings, x.id, start, finish)|);
  }

  lemma RemainingCopies(existing: seq<ExistingImage>, settings: Settings, start: int, finish: int,
                        x: ExistingImage)
    requires multiset(Selection(existing, settings, start, finish)) <= multiset(existing)
    ensures (multiset(existing) - multiset(Selection(existing, settings, start, finish)))[x]
         == multiset(WorkingView(existing, settings, start, finish))[x]
  {
    var all, taken := multiset(existing), multiset(Selection(existing, settings, start, finish));
    var n := |ListingPositions(settings, x.id, start, finish)|;
    SelectionCount(existing, settings, start, finish, x);
    SelectedIffListingPositions(settings, x.id, start, finish);
    assert taken[x] <= all[x];
    Remaining(all[x], n, taken[x]);
    assert (all - taken)[x] == all[x] - taken[x];
  }

  /** `m` rows listed `n` times each, `m * n` of them removed: none remain
      when the image is listed, all when it is not. */
  lemma Remaining(m: nat, n: nat, s: nat)
    requires s == m * n && s <= m
    ensures m - s == if n > 0 then 0 else m
  {
    if m > 0 {
      MulAtMostSelf(m, n);
    }
  }

  lemma MulAtMostSelf(m: nat, n: nat)
    ensures m * n <= m <==> m == 0 || n <= 1
  {
    if m > 0 && n >= 2 {
      assert m * n >= m * 2;
    }
    if n <= 1 {
      MulByAtMostOne(n, m);
    }
  }

  lemma NoDuplicatesByCount(s: seq<ExistingImage>)
    ensures NoDuplicates(s) <==> forall x :: multiset(s)[x] <= 1
  {
    if NoDuplicates(s) {
      forall x ensures multiset(s)[x] <= 1 {
        DistinctCount(s, x);
      }
    } else {
      var i, j :| 0 <= i < j < |s| && s[i] == s[j];
      assert s == s[..j] + [s[j]] + s[j + 1..];
      assert s[i] in s[..j];
      assert multiset(s[..j])[s[j]] >= 1;
      assert multiset(s)[s[j]] >= 2;
    }
  }

  lemma {:induction false} DistinctCount(s: seq<ExistingImage>, x: ExistingImage)
    requires NoDuplicates(s)
    ensures multiset(s)[x] <= 1
    decreases |s|
  {
    if |s| > 0 {
      assert s == [s[0]] + s[1..];
      DistinctCount(s[1..], x);
      if s[0] == x {
        assert x !in s[1..];
      }
    }
  }

  lemma TakeOneBack(x: ExistingImage, all: multiset<ExistingImage>, rest: multiset<ExistingImage>,
                    taken: multiset<ExistingImage>)
    requires x in all && rest == all - multiset{x} && taken <= rest
    ensures multiset{x} + taken <= all
  {
    forall y ensures (multiset{x} + taken)[y] <= all[y] {
      assert taken[y] <= rest[y];
    }
  }

  lemma {:induction false} FilterOutTwice(xs: seq<ExistingImage>, a: seq<ExistingImage>, b: seq<ExistingImage>)
    ensures FilterOut(FilterOut(xs, a), b) == FilterOut(xs, a + b)
    decreases |xs|
  {
    if |xs| > 0 {
      FilterOutTwice(xs[1..], a, b);
      var x := xs[0];
      if x in a {
        assert x in a + b;
        assert FilterOut(xs, a) == FilterOut(xs[1..], a);
      } else {
        var fa := FilterOut(xs[1..], a);
        assert FilterOut(xs, a) == [x] + fa;
        assert ([x] + fa)[0] == x && ([x] + fa)[1..] == fa;
        assert (x in a + b) <==> x in b;
      }
    }
  }

  lemma {:induction false} FilterOutSameMembers(xs: seq<ExistingImage>, a: seq<ExistingImage>, b: seq<ExistingImage>)
    requires forall x :: x in a <==> x in b
    ensures FilterOut(xs, a) == FilterOut(xs, b)
    decreases |xs|
  {
    if |xs| > 0 {
      FilterOutSameMembers(xs[1..], a, b);
    }
  }

  lemma {:induction false} FilterOutDistinct(xs: seq<ExistingImage>, removed: seq<ExistingImage>)
    requires NoDuplicates(xs)
    ensures NoDuplicates(FilterOut(xs, removed))
    decreases |xs|
  {
    NoDuplicatesByCount(xs);
    NoDuplicatesByCount(FilterOut(xs, removed));
    forall x ensures multiset(FilterOut(xs, removed))[x] <= 1 {
      FilterOutCount(xs, removed, x);
    }
  }

  /** On a list without repeats, removing distinct members one by one
      leaves exactly the members not removed. */
  lemma {:induction false} RemoveEachOfDistinct(xs: seq<ExistingImage>, selection: seq<ExistingImage>)
    requires NoDuplicates(xs) && NoDuplicates(selection)
    requires forall x :: x in selection ==> x in xs
    ensures RemoveEach(xs, selection) == Ok(FilterOut(xs, selection))
    decreases |selection|
  {
    if |selection| == 0 {
      assert FilterOut(xs, selection) == xs by {
        FilterOutSameMembers(xs, selection, []);
        FilterOutNothing(xs);
      }
    } else {
      var s0 := selection[0];
      var rest := FilterOut(xs, [s0]);
      ListRemoveOfDistinct(xs, s0);
      FilterOutDistinct(xs, [s0]);
      assert NoDuplicates(selection[1..]);
      forall x | x in selection[1..] ensures x in rest {
        assert x != s0;
      }
      RemoveEachOfDistinct(rest, selection[1..]);
      FilterOutTwice(xs, [s0], selection[1..]);
      assert [s0] + selection[1..] == selection;
    }
  }

  lemma {:induction false} FilterOutNothing(xs: seq<ExistingImage>)
    ensures FilterOut(xs, []) == xs
    decreases |xs|
  {
    if |xs| > 0 {
      FilterOutNothing(xs[1..]);
      assert xs == [xs[0]] + xs[1..];
    }
  }

  lemma {:induction false} ListRemoveOfDistinct(xs: seq<ExistingImage>, x: ExistingImage)
    requires NoDuplicates(xs) && x in xs
    ensures ListRemove(xs, x) == Ok(FilterOut(xs, [x]))
    decreases |xs|
  {
    if xs[0] == x {
      forall j | 0 <= j < |xs[1..]| ensures xs[1..][j] != x {
        assert xs[1..][j] == xs[j + 1];
      }
      FilterOutUntouched(xs[1..], [x]);
      assert FilterOut(xs, [x]) == [] + FilterOut(xs[1..], [x]);
      assert FilterOut(xs, [x]) == xs[1..];
      assert FirstIndex(xs, x) == 0 && xs[..0] + xs[0 + 1..] == xs[1..];
    } else {
      assert NoDuplicates(xs[1..]) by {
        forall i, j | 0 <= i < j < |xs[1..]| ensures xs[1..][i] != xs[1..][j] {
          assert xs[1..][i] == xs[i + 1] && xs[1..][j] == xs[j + 1];
        }
      }
      ListRemoveOfDistinct(xs[1..], x);
      ListRemoveCons(xs, x);
      assert FilterOut(xs, [x]) == [xs[0]] + FilterOut(xs[1..], [x]);
    }
  }

  /** Removing from a list whose head is not `x` keeps the head. */
  lemma ListRemoveCons(xs: seq<ExistingImage>, x: ExistingImage)
    requires x in xs && xs[0] != x
    ensures x in xs[1..] && ListRemove(xs, x) == Ok([xs[0]] + ListRemove(xs[1..], x).value)
  {
    var j := FirstIndex(xs[1..], x);
    assert FirstIndex(xs, x) == j + 1;
    assert xs[..j + 1] + xs[j + 2..] == [xs[0]] + (xs[1..][..j] + xs[1..][j + 1..]);
  }

  lemma {:induction false} FilterOutUntouched(xs: seq<ExistingImage>, removed: seq<ExistingImage>)
    requires forall x :: x in removed ==> x !in xs
    ensures FilterOut(xs, removed) == xs
    decreases |xs|
  {
    if |xs| > 0 {
      FilterOutUntouched(xs[1..], removed);
      assert xs == [xs[0]] + xs[1..];
    }
  }

  /** Per image: on a snapshot without repeated rows, an image occurs at most
      once in the selection exactly when at most one position lists it. */
  lemma SelectionCopiesOfRow(existing: seq<ExistingImage>, settings: Settings, start: int,
                             finish: int, x: ExistingImage)
    requires NoDuplicates(existing)
    ensures multiset(Selection(existing, settings, start, finish))[x] <= 1
        <==> (x in existing ==> |ListingPositions(settings, x.id, start, finish)| <= 1)
  {
    var n := |ListingPositions(settings, x.id, start, finish)|;
    var m := multiset(existing)[x];
    SelectionCount(existing, settings, start, finish, x);
    DistinctCount(existing, x);
    assert x in existing <==> m == 1;
    MulByAtMostOne(m, n);
  }

  /** On a snapshot without repeated rows, the selection has no repeats
      exactly when no position pair of the range lists the same image. */
  lemma SelectionDistinctIff(existing: seq<ExistingImage>, settings: Settings, start: int, finish: int)
    requires NoDuplicates(existing)
    ensures NoDuplicates(Selection(existing, settings, start, finish))
        <==> forall e :: e in existing ==> |ListingPositions(settings, e.id, start, finish)| <= 1
  {
    var selection := Selection(existing, settings, start, finish);
    NoDuplicatesByCount(selection);
    forall x ensures multiset(selection)[x] <= 1
                 <==> (x in existing ==> |ListingPositions(settings, x.id, start, finish)| <= 1) {
      SelectionCopiesOfRow(existing, settings, start, finish, x);
    }
  }

  /** On a snapshot without repeated rows, the deletion loop as written
      completes exactly when no existing image is listed at two positions of
      the range, and then leaves the working view. */
  lemma AsWrittenCompletesIff(existing: seq<ExistingImage>, settings: Settings, start: int,
                              finish: int, dryRun: bool)
    requires NoDuplicates(existing)
    ensures var r := RemovalPhaseAsWritten(existing, settings, start, finish, dryRun);
            && (r.working.Ok? <==> NoDuplicates(Selection(existing, settings, start, finish)))
            && (r.working.Ok? <==>
                  forall e :: e in existing ==> |ListingPositions(settings, e.id, start, finish)| <= 1)
            && (r.working.Ok? ==> r.working.value == WorkingView(existing, settings, start, finish))
  {
    var selection := Selection(existing, settings, start, finish);
    var r := RemovalPhaseAsWritten(existing, settings, start, finish, dryRun);
    assert r.working == RemoveEach(existing, selection);
    SelectionDistinctIff(existing, settings, start, finish);
    if r.working.Ok? {
      NoDuplicatesByCount(existing);
      NoDuplicatesByCount(selection);
      forall x ensures multiset(selection)[x] <= 1 {
        assert multiset(selection)[x] <= multiset(existing)[x];
      }
    }
    if NoDuplicates(selection) {
      SelectionMembers(existing, settings, start, finish);
      RemoveEachOfDistinct(existing, selection);
    }
  }

  /** Removing each selected image once always completes on a snapshot
      without repeated rows and leaves the working view. */
  lemma CorrectedRemovalCompletes(existing: seq<ExistingImage>, settings: Settings, start: int,
                                  finish: int)
    requires NoDuplicates(existing)
    ensures RemoveEach(existing, ToRemove(existing, settings, start, finish))
         == Ok(WorkingView(existing, settings, start, finish))
  {
    var selection := Selection(existing, settings, start, finish);
    var targets := ToRemove(existing, settings, start, finish);
    DedupSpec(selection);
    RemoveEachOfDistinct(existing, targets);
    FilterOutSameMembers(existing, targets, selection);
  }

  /** One image listed at positions 1 and 2: the selection holds it twice and
      the second `list.remove` raises. */
  lemma RepeatedListingRaises()
    ensures var existing := [ExistingImage("a", Handle(0))];
            var settings := map["1.id" := "a", "2.id" := "a"];
            && Selection(existing, settings, 1, 2) == [existing[0], existing[0]]
            && RemovalPhaseAsWritten(existing, settings, 1, 2, false).posted == [Handle(0), Handle(0)]
            && RemovalPhaseAsWritten(existing, settings, 1, 2, true).working == Err(RemoveNotInList)
  {
    var e := ExistingImage("a", Handle(0));
    var settings := map["1.id" := "a", "2.id" := "a"];
    RepeatedSelection(e, settings);
    assert Forms([e, e]) == [Handle(0), Handle(0)];
    assert RemoveEach([e], [e, e]).Err? by {
      assert multiset([e, e])[e] == 2 && multiset([e])[e] == 1;
    }
  }

  lemma RepeatedSelection(e: ExistingImage, settings: Settings)
    requires e == ExistingImage("a", Handle(0)) && settings == map["1.id" := "a", "2.id" := "a"]
    ensures Selection([e], settings, 1, 2) == [e, e]
  {
    assert IdKey(1) == "1.id" && IdKey(2) == "2.id";
    SplitWithoutSeparator("a", '|');
    assert Listed(settings, 1, "a") && Listed(settings, 2, "a");
    assert Hits(e, settings, 3, 2) == [];
    assert Hits(e, settings, 1, 2) == [e, e];
    assert [e][1..] == [];
  }
}

=== FILE: results.dfy ===
/** Failure values of the uploader: the two Python exceptions the modelled
    code can raise on its own (both are `ValueError`s), and a Result type
    carrying either a value or one of them. */
module Results {

  datatype PyError =
    /** `list.remove(x)` on a list that does not hold `x`. */
    | RemoveNotInList
    /** `ThreadPoolExecutor(max_workers)` with `max_workers <= 0`. */
    | NonPositiveWorkers

  datatype Result<+T> = Ok(value: T) | Err(error: PyError) {

    predicate IsFailure() {
      Err?
    }

    function PropagateFailure<U>(): Result<U>
      requires Err?
    {
      Err(error)
    }

    function Extract(): T
      requires Ok?
    {
      value
    }
  }

  datatype Option<+T> = None | Some(value: T)
}

=== FILE: uploader.dfy ===
/** `main()` once the profile's settings are loaded, the session cookie is
    set and the workspace's emoji table has been read: the removal phase
    when `--remove` is given, then the upload phase when `--upload` is
    given, both over the inclusive range `[--start, --finish]`. */
module Uploader {
  import opened Results
  import opened Inventory
  import opened PyText
  import opened PyCollections
  import opened Expansion
  import opened Removal
  import opened Dispatch

  /** The command-line switches the two phases read. */
  datatype Args = Args(start: int, finish: int, upload: bool, remove: bool, dryRun: bool, threads: int)

  /** What a run does: the removal forms it posts, the ids the removal phase
      reports, the working view the upload phase checks against, and the
      upload loop's events. */
  datatype Report = Report(posted: seq<Handle>, removed: seq<string>, working: seq<ExistingImage>,
                           events: seq<Event>)

  /** One run, as the uploader does it. The removal phase posts one form per
      selection entry and then runs its deletion loop, whose ValueError ends
      the run before the upload phase starts; the upload phase fails when the
      thread pool refuses a non-positive worker count. */
  function Run(existing: seq<ExistingImage>, settings: Settings, args: Args, wait: Waiter)
    : (r: Result<Report>)
    requires ReturnsOnCompletion(wait)
    ensures r.Err? <==> (args.remove && ListedTwice(existing, settings, args.start, args.finish))
                        || (args.upload && args.threads <= 0)
    ensures r.Err? ==>
              r.error == if args.remove && ListedTwice(existing, settings, args.start, args.finish)
                         then RemoveNotInList else NonPositiveWorkers
    ensures r.Ok? && !args.remove ==>
              r.value.posted == [] && r.value.removed == [] && r.value.working == existing
    ensures r.Ok? && args.remove && !args.dryRun ==>
              r.value.posted == Forms(Selection(existing, settings, args.start, args.finish))
    ensures r.Ok? && args.remove ==>
              && (forall id :: id in r.value.removed <==>
                    HasId(existing, id) && Selected(settings, id, args.start, args.finish))
              && multiset(r.value.working)
                 == multiset(WorkingView(existing, settings, args.start, args.finish))
              && forall x :: x in r.value.working <==>
                   x in existing && !Selected(settings, x.id, args.start, args.finish)
    ensures r.Ok? && args.dryRun ==> r.value.posted == [] && Quiet(r.value.events)
    ensures r.Ok? && !args.upload ==> r.value.events == []
    ensures r.Ok? && args.upload ==>
              && (forall img :: img in Dispatched(r.value.events) <==>
                    img in Desired(settings, args.start, args.finish) && !HasId(r.value.working, img.id))
              && Dispatched(r.value.events) == Uploads(Desired(settings, args.start, args.finish), r.value.working)
              && Warnings(r.value.events) == Unconfigured(settings, args.start, args.finish)
              && Scheduled(r.value.events, args.threads)
  {
    var removal :=
      if args.remove then RemovalPhaseAsWritten(existing, settings, args.start, args.finish, args.dryRun)
      else AsWrittenOutcome([], [], Ok(existing));
    var working :- removal.working;
    if !args.upload then
      Ok(Report(removal.posted, removal.reported, working, []))
    else
      var events :- UploadPhase(settings, args.start, args.finish, working, args.threads,
                                args.dryRun, wait);
      Ok(Report(removal.posted, removal.reported, working, events))
  }

  /** One run with the removal phase corrected to remove each selected image
      once: only the upload phase can fail, and a real run posts the form of
      every selected image exactly once. */
  function RunCorrected(existing: seq<ExistingImage>, settings: Settings, args: Args, wait: Waiter)
    : (r: Result<Report>)
    requires ReturnsOnCompletion(wait)
    ensures r.Err? <==> args.upload && args.threads <= 0
    ensures r.Ok? && !args.remove ==>
              r.value.posted == [] && r.value.removed == [] && r.value.working == existing
    ensures r.Ok? && args.remove && !args.dryRun ==>
              && |r.value.posted| == |r.value.removed|
              && NoDuplicates(Rows(r.value.removed, r.value.posted))
              && forall x :: x in Rows(r.value.removed, r.value.posted) <==>
                   x in existing && Selected(settings, x.id, args.start, args.finish)
    ensures r.Ok? && args.remove ==>
              forall x :: x in r.value.working <==>
                x in existing && !Selected(settings, x.id, args.start, args.finish)
    ensures r.Ok? && args.dryRun ==> r.value.posted == [] && Quiet(r.value.events)
    ensures r.Ok? && !args.upload ==> r.value.events == []
    ensures r.Ok? && args.upload ==>
              && (forall img :: img in Dispatched(r.value.events) <==>
                    img in Desired(settings, args.start, args.finish) && !HasId(r.value.working, img.id))
              && Dispatched(r.value.events) == Uploads(Desired(settings, args.start, args.finish), r.value.working)
              && Warnings(r.value.events) == Unconfigured(settings, args.start, args.finish)
              && Scheduled(r.value.events, args.threads)
  {
    var removal :=
      if args.remove then RemovalPhase(existing, settings, args.start, args.finish, args.dryRun)
      else RemovalOutcome([], [], existing);
    if !args.upload then
      Ok(Report(removal.posted, removal.reported, removal.working, []))
    else
      var events :- UploadPhase(settings, args.start, args.finish, removal.working, args.threads,
                                args.dryRun, wait);
      Ok(Report(removal.posted, removal.reported, removal.working, events))
  }

  /** A dry run previews the real run: it fails exactly when the real run
      does, reports the same removals, keeps the same working view and
      reports as "Would upload" exactly the images the real run submits,
      while posting and submitting nothing. */
  lemma DryRunPreviews(existing: seq<ExistingImage>, settings: Settings, args: Args, wait: Waiter)
    requires ReturnsOnCompletion(wait)
    ensures var dry := Run(existing, settings, args.(dryRun := true), wait);
            var live := Run(existing, settings, args.(dryRun := false), wait);
            && (dry.Ok? <==> live.Ok?)
            && (dry.Ok? ==>
                  && dry.value.posted == []
                  && Quiet(dry.value.events)
                  && dry.value.removed == live.value.removed
                  && dry.value.working == live.value.working
                  && Dispatched(dry.value.events) == Dispatched(live.value.events)
                  && Warnings(dry.value.events) == Warnings(live.value.events))
  {
    if args.remove {
      var d := RemovalPhaseAsWritten(existing, settings, args.start, args.finish, true);
      var r := RemovalPhaseAsWritten(existing, settings, args.start, args.finish, false);
      assert d.reported == r.reported && d.working == r.working;
    }
  }

  /** Every image a configured position asks for is listed by that
      position, so the removal phase selects its id. */
  lemma {:induction false} DesiredAreSelected(settings: Settings, k: int, finish: int, start: int, img: Image)
    requires start <= k && img in Desired(settings, k, finish)
    ensures Selected(settings, img.id, start, finish)
    decreases finish - k + 1
  {
    if k <= finish {
      match PositionImages(settings, k)
      case None =>
        DesiredAreSelected(settings, k + 1, finish, start, img);
      case Some(images) =>
        if img in images {
          PositionImagesSpec(settings, k);
          var ids := Split(settings[IdKey(k)], '|');
          var n := |Pairs(settings, k)|;
          var i :| 0 <= i < |images| && images[i] == img;
          assert ImageIds(images)[i] == img.id;
          DedupSpec(ids[..n]);
          assert img.id in ids[..n];
          assert img.id in ids;
          assert Listed(settings, k, img.id);
        } else {
          DesiredAreSelected(settings, k + 1, finish, start, img);
        }
    }
  }

  /** Removing and uploading over the same range replaces: when the run
      gets past the removal phase, every listed id is out of the working
      view, so no desired image is skipped and the upload loop dispatches all
      of them in range order. The run gets there exactly when no existing
      image is listed at two positions of the range. */
  lemma RemoveThenUploadReplaces(existing: seq<ExistingImage>, settings: Settings, args: Args,
                                 wait: Waiter)
    requires ReturnsOnCompletion(wait)
    requires args.remove && args.upload && args.threads >= 1
    ensures Run(existing, settings, args, wait).Ok?
        <==> !ListedTwice(existing, settings, args.start, args.finish)
    ensures Run(existing, settings, args, wait).Ok? ==>
              Dispatched(Run(existing, settings, args, wait).value.events)
              == Desired(settings, args.start, args.finish)
  {
    var r := Run(existing, settings, args, wait);
    if r.Ok? {
      ListedOutOfView(settings, args.start, args.finish, r.value.working);
    }
  }

  /** With the corrected removal phase the run always gets to the upload
      phase, and replaces every desired image. */
  lemma CorrectedRunReplaces(existing: seq<ExistingImage>, settings: Settings, args: Args,
                             wait: Waiter)
    requires ReturnsOnCompletion(wait)
    requires args.remove && args.upload && args.threads >= 1
    ensures RunCorrected(existing, settings, args, wait).Ok?
    ensures Dispatched(RunCorrected(existing, settings, args, wait).value.events)
         == Desired(settings, args.start, args.finish)
  {
    ListedOutOfView(settings, args.start, args.finish, RunCorrected(existing, settings, args, wait).value.working);
  }

  /** A working view that holds no listed image lets every desired image
      through. */
  lemma ListedOutOfView(settings: Settings, start: int, finish: int, working: seq<ExistingImage>)
    requires forall x :: x in working ==> !Selected(settings, x.id, start, finish)
    ensures Uploads(Desired(settings, start, finish), working) == Desired(settings, start, finish)
  {
    var desired := Desired(settings, start, finish);
    forall img | img in desired ensures !HasId(working, img.id) {
      DesiredAreSelected(settings, start, finish, start, img);
      forall i | 0 <= i < |working| ensures working[i].id != img.id {
        assert working[i] in working;
      }
    }
    UploadsWithoutClash(desired, working);
  }

  // ---------------------------------------------------------------------
  // One upload task

  /** `upload()`: posts the add-emoji form, whose hidden inputs are given,
      with `name` set to the image's id and `mode` to `data`, and returns the
      image's id. */
  function Upload(hidden: map<string, string>, image: Image): (r: (map<string, string>, string))
    ensures "name" in r.0 && r.0["name"] == r.1
    ensures "mode" in r.0 && r.0["mode"] == "data"
    ensures forall key :: key in r.0 <==> key in hidden || key == "name" || key == "mode"
    ensures forall key :: key in hidden && key != "name" && key != "mode" ==> r.0[key] == hidden[key]
    ensures r.1 == image.id
  {
    (hidden["name" := image.id]["mode" := "data"], image.id)
  }

  /** How the retried call to `upload()` ended. */
  datatype Attempt =
    | Returned
    | RaisedRuntimeError(message: string)
    /** Any other exception: it stays in the future, which nobody reads. */
    | RaisedOther

  /** The line `reliably_upload` logs for one task. */
  datatype TaskLog =
    | UploadedAs(filename: string, name: string)
    | UploadFailed(id: string, reason: string)
    | NoLog

  /** `reliably_upload()`: logs the name `upload()` returned on success, and
      the image's id with the error on a RuntimeError. */
  function ReliablyUpload(hidden: map<string, string>, image: Image, attempt: Attempt): (log: TaskLog)
    ensures log.UploadedAs? <==> attempt.Returned?
    ensures log.UploadedAs? ==>
              log.filename == image.filename && log.name == Upload(hidden, image).0["name"]
    ensures log.UploadFailed? <==> attempt.RaisedRuntimeError?
    ensures log.UploadFailed? ==> log.id == image.id && log.reason == attempt.message
  {
    match attempt
    case Returned => UploadedAs(image.filename, Upload(hidden, image).1)
    case RaisedRuntimeError(message) => UploadFailed(image.id, message)
    case RaisedOther => NoLog
  }
}
